=== FILE: README.md ===
# go-capnproto2: promise pipelining and generated accessors, in Dafny

This project models two parts of the Go Cap'n Proto library and proves properties of the models.

1. **The promise-pipelining answer machine** of `internal/fulfiller`.
   - A `Fulfiller` is an answer that is resolved exactly once, by `Fulfill` or by `Reject`.
   - Until then it queues pipelined calls, at most 64 of them.
   - On `Fulfill` it sorts the queue. A call whose transform fails is rejected, and so is a call that does not reach a capability. Every other call goes into the group of its capability-table index.
   - Each group becomes an `embargoClient` that replaces the table entry it wraps.
   - An embargo client dispatches its queued calls head first, and nothing reaches the wrapped client ahead of a queued call. `Close` cancels the calls still queued instead of delivering them. It passes calls straight through only once its queue is empty.
2. **The code `capnpc-go` generates** for the JSON schema (`JsonValue`, `JsonValue_Field`, `JsonValue_Call`) and for the demo `Book` struct.
   - A union discriminant that every setter writes and every getter checks.
   - Little-endian data fields, including an int32 stored through uint32.
   - Pointer slots, with read-after-write.
   - Object sizes.
   - The promise accessors, whose pipeline index is the field's pointer slot.

Modules:

- `Wrappers`: `Option`, `Result`, and `Outcome`. `Outcome` is a value or a Go panic with its message.
- `Capnp`: the abstract struct the generated code runs on.
  - A data section of bytes and a sequence of pointer slots.
  - Little-endian integer fields and single bits.
  - Pointer reads and writes.
  - Calls, pipeline ops, `TransformPtr` and `Pipeline.GetPipeline`.
- `Strconv`: `strconv.FormatUint(_, 10)`, with a parser it round-trips with.
- `JsonLayout`, `JsonValue`, `JsonValueField`, `JsonValueCall`: the generated JSON accessors.
- `Books`: the generated `Book` accessors.
- `Rpc`: values shared by the fulfiller package.
  - Queued calls (`ecall`), clients, answers and the queue capacity.
  - *Events*: the model's record of what an operation does to other objects. Examples are rejecting a child Fulfiller, dispatching a call to a client, or closing a client.
- `Embargo`: `embargoClient`. Every operation is one atomic step.
- `EmbargoRuns`: arbitrary interleavings of `Call`, `flushQueue` iterations and `Close` on one embargo client, and the properties of every such run.
- `Fulfiller`: `Fulfiller` with `emptyQueue`, `Fulfill`, `Reject`, `Peek` and `PipelineCall`.

How Go constructs are modelled:

- The Go methods are pure functions from the old state to the new state.
- A Go `panic` is an `Outcome.Panic` carrying the panic's message.
- A Go `(T, error)` result is a `Fetched(value, err)`.
- Calling another object is an `Event` in the result.
- The caller supplies four things the source creates, reaches through another object, or calls out for:
  - the identity of each `new(Fulfiller)`;
  - `Call.Copy`, as a function that may fail;
  - the error the wrapped client's `Close` returns, which `Embargo.Close` passes on;
  - `ctab`, the capability table of the fulfilled struct's message, which `Fulfill` reads and rewrites.

## Model

| member | source | states |
|---|---|---|
| Fulfiller.EmptyQueue | internal/fulfiller/fulfiller.go:60-84 | One front-to-back pass over the queue produces three things, each equal to an independent filter definition. The rejections are exactly `Rejections(queue)` in queue order: the transform error, or `ErrNullClient` for a non-capability. The group keys are exactly the capability indices some call targets. Each group is `Group(queue, c)`: the calls aimed at `c`, in queue order. |
| Fulfiller.GroupMembers | internal/fulfiller/fulfiller.go:76-80 | A group holds exactly the calls whose target is that capability. It is non-empty iff some call targets the capability, and it is never longer than the queue. |
| Fulfiller.EachCallLandsOnce | internal/fulfiller/fulfiller.go:65-81 | Every queued call ends in exactly one place. A failed transform rejects its child Fulfiller with the transform error. A non-capability target rejects it with `ErrNullClient`. A capability target puts the call in that capability's group. When the queued calls are distinct, a call is in a group only if it targets that capability, and a rejected call is in no group. When the child Fulfillers are distinct, no rejection names the child of a capability-targeted call. |
| Fulfiller.Fulfill | internal/fulfiller/fulfiller.go:43-58 | Panics "Fulfiller.Fulfill called more than once" on a resolved Fulfiller. Otherwise it returns iff every targeted index is inside `ctab`, the capability table of `s`'s message, and panics "index out of range" if not. On success the answer is `Immediate(s)` and the queue is empty. The events are the rejections. `ctab[i]` becomes an embargo client wrapping the old `ctab[i]` and seeded with group `i` exactly when some call targets `i`; every other entry is unchanged. |
| Fulfiller.FulfillThenFlushDelivers | internal/fulfiller/fulfiller.go:50-55 | After `Fulfill`, flushing the embargo client installed at index `c` dispatches group `c` to the old `ctab[c]`, in queue order, and leaves it passthrough. |
| Fulfiller.Reject | internal/fulfiller/fulfiller.go:86-106 | A nil error panics "Fulfiller.Reject called with nil" before the state is consulted. A resolved Fulfiller panics "Fulfiller.Reject called more than once". Otherwise the answer is the error answer and the queue is empty. Event `i` rejects the child of queued call `i` with that same error, one event per queued call. |
| Fulfiller.ResolvesOnce | internal/fulfiller/fulfiller.go:46-48 | On a resolved Fulfiller, `Fulfill` and `Reject` panic. `Peek` still reports the first answer. `PipelineCall` delegates to that answer and leaves the state alone. |
| Fulfiller.ResolutionIsValid | internal/fulfiller/fulfiller.go:99-105 | A successful `Fulfill` or `Reject` leaves a valid resolved state. After `Reject(err)`, `Peek` reports `ErrorAnswer(err)`. |
| Fulfiller.Peek | internal/fulfiller/fulfiller.go:114-122 | Returns an answer iff the Fulfiller is resolved, and then the answer it was resolved with. A valid resolved Fulfiller has an empty queue. |
| Fulfiller.PipelineCall | internal/fulfiller/fulfiller.go:131-166 | A resolved Fulfiller delegates to its answer's `PipelineCall`, with the state unchanged. A full queue (64 entries) answers `errCallQueueFull`, and a failed copy answers its error; neither changes the queue. Otherwise exactly one entry is appended at the tail, with the copied call and the new child, and that child is returned. The state invariant is preserved: at most 64 entries, and an empty queue once resolved. |
| Embargo.NewEmbargoClient | internal/fulfiller/fulfiller.go:189-196 | The client wraps the given client. Its queue is the longest prefix of the seed that fits in 64 slots: the whole seed when it fits, else exactly 64 calls. |
| Embargo.Push | internal/fulfiller/fulfiller.go:198-208 | The call is copied first, and a copy failure answers its error. A full queue answers `errCallQueueFull`. Neither changes the queue. Otherwise the copied call is appended at the tail with the new child Fulfiller, which is returned. The 64 bound is preserved and the wrapped client never changes. |
| Embargo.IsPassthrough | internal/fulfiller/fulfiller.go:256-258 | True iff flushing has nothing to dispatch. A flush step on a passthrough client changes nothing. |
| Embargo.Call | internal/fulfiller/fulfiller.go:260-279 | With an empty queue the call goes straight to the wrapped client. Otherwise it is `push`. The client is passthrough after the call iff it was before. |
| Embargo.WrappedClient | internal/fulfiller/fulfiller.go:246-258 | Returns nil exactly while the queue is non-empty, and the wrapped client otherwise. |
| Embargo.FlushStep | internal/fulfiller/fulfiller.go:226-242 | One loop iteration of `flushQueue`. The head call is dispatched to the wrapped client and popped. On an empty queue nothing happens. |
| Embargo.FlushQueue | internal/fulfiller/fulfiller.go:224-244 | Dispatches every queued call to the wrapped client, in queue order, one event per call. It ends with an empty queue. |
| Embargo.Close | internal/fulfiller/fulfiller.go:281-290 | Cancels every queued call in queue order (`errQueueCallCancel`). Event `i` rejects the child of queued call `i` with `errQueueCallCancel`. It empties the queue, then closes the wrapped client exactly once, as the last event, and returns that client's `Close` error unchanged. |
| EmbargoRuns.DeliveryOrder | internal/fulfiller/fulfiller.go:225-290 | Over any interleaving of `Call`, flush steps and `Close`, the calls that left the client, followed by the calls still queued, equal the calls queued at the start, followed by the calls that arrived, in order. Calls leave by being dispatched, cancelled or forwarded. So delivery is FIFO, and a directly forwarded call never overtakes a queued one. |
| EmbargoRuns.PassthroughIsPermanent | internal/fulfiller/fulfiller.go:256-279 | From an empty queue, any run keeps the queue empty and never enqueues a call. |
| EmbargoRuns.RunKeepsClient | internal/fulfiller/fulfiller.go:182-187 | Over any run the wrapped client is unchanged. Every dispatch, forward and close goes to it. A queue within 64 stays within 64. |
| EmbargoRuns.FlushQueueIsSteps | internal/fulfiller/fulfiller.go:229-243 | The whole `flushQueue` loop equals one flush step per queued call. |
| JsonValue.WhichString | std/capnp/json/json.capnp.go:26-46 | Tags 0 to 6 print as null, boolean, number, string_, array, object and call. Any other tag prints as `JsonValue_Which(` + its decimal + `)`. |
| JsonValue.WhichNamesSlices | std/capnp/json/json.capnp.go:27-42 | Each name is the stated slice of the one constant string: [0:4], [4:11], [11:17], [17:24], [24:29], [29:35], [35:39]. |
| JsonValue.WhichStringInjective | std/capnp/json/json.capnp.go:26-46 | Distinct tags print differently. |
| Strconv.FormatUint | std/capnp/json/json.capnp.go:45 | The decimal spelling is non-empty and all digits, with no leading zero except for "0", and it parses back to the number. |
| JsonValue.Which | std/capnp/json/json.capnp.go:71-73 | The tag is the little-endian uint16 in data bytes 0 and 1. A data section under 2 bytes reads as 0, which is `null`. |
| JsonValue.SetTag | std/capnp/json/json.capnp.go:71-77 | The uint16 at data offset 0 then reads back as the tag written. Pointers and every other data byte are unchanged, and a data section under 2 bytes panics. |
| JsonValue.SetNull | std/capnp/json/json.capnp.go:74-77 | After `SetNull`, `Which` is `null` and the pointer slots are unchanged. |
| JsonValue.Boolean | std/capnp/json/json.capnp.go:79-84 | Panics "Which() != boolean" iff the tag is not `boolean`. Otherwise it returns bit 16. |
| JsonValue.SetBoolean | std/capnp/json/json.capnp.go:86-89 | Returns iff the data section holds byte 2. Afterwards `Which` is `boolean` and `Boolean` returns `v`. The number bytes 8-15 and the pointer slots are unchanged. |
| JsonValue.Number | std/capnp/json/json.capnp.go:91-96 | Panics "Which() != number" iff the tag is not `number`. Otherwise it returns the 64-bit payload at offset 8. |
| JsonValue.SetNumber | std/capnp/json/json.capnp.go:98-101 | Returns iff the data section holds bytes 8-15. Afterwards `Which` is `number` and `Number` returns the payload. Bit 16 and the pointer slots are unchanged. |
| JsonValue.String_ | std/capnp/json/json.capnp.go:103-109 | Panics "Which() != string_" iff the tag is not `string_`. Otherwise it returns what `String_Bytes` reads. |
| JsonValue.String_Bytes | std/capnp/json/json.capnp.go:119-122 | Reads slot 0 as text without a tag check. The error is the slot's read error, and a readable text pointer yields its text. |
| JsonValue.HasString_ | std/capnp/json/json.capnp.go:111-117 | False whenever the tag is not `string_`. With that tag it is true iff slot 0 holds a pointer or fails to read. |
| JsonValue.SetString_ | std/capnp/json/json.capnp.go:124-127 | Returns iff the tag and slot 0 fit. Afterwards `Which` is `string_`, `String_` reads `v` with no error, and `HasString_` holds iff `v` is non-empty, since an empty string is stored as a null pointer. The boolean bit and the number are unchanged. |
| JsonValue.Array | std/capnp/json/json.capnp.go:129-135 | Panics "Which() != array" iff the tag is not `array`. Otherwise it returns slot 0's read error, and the list stored there when it reads. |
| JsonValue.HasArray | std/capnp/json/json.capnp.go:137-143 | False whenever the tag is not `array`. Otherwise it is true iff slot 0 is set or unreadable. |
| JsonValue.SetArray | std/capnp/json/json.capnp.go:145-148 | Returns iff the tag and slot 0 fit. `Which` is then `array`, `Array` reads the list back. `HasArray` holds iff a list was given; the Go zero value (`None`) is stored as null and reads back as the empty list. |
| JsonValue.NewArray | std/capnp/json/json.capnp.go:150-160 | Sets tag `array` and stores a fresh list of `n` zeroed `JsonValue`s {16, 1} in slot 0. It returns a copy of that list, which `Array` reads back. |
| JsonValue.Object | std/capnp/json/json.capnp.go:162-168 | Panics "Which() != object" iff the tag is not `object`. Otherwise it returns slot 0's read error, and the field list stored there when it reads. |
| JsonValue.HasObject | std/capnp/json/json.capnp.go:170-176 | False whenever the tag is not `object`. Otherwise it is true iff slot 0 is set or unreadable. |
| JsonValue.SetObject | std/capnp/json/json.capnp.go:178-181 | Returns iff the tag and slot 0 fit. `Which` is then `object`, `Object` reads the list back. `HasObject` holds iff a list was given; the Go zero value (`None`) is stored as null and reads back as the empty list. |
| JsonValue.NewObject | std/capnp/json/json.capnp.go:183-193 | Sets tag `object` and stores a fresh list of `n` zeroed fields {0, 2} in slot 0, and returns a copy of that list, which `Object` reads back. |
| JsonValue.Call | std/capnp/json/json.capnp.go:195-201 | Panics "Which() != call" iff the tag is not `call`. Otherwise it returns slot 0's read error, and the struct stored there when it reads. |
| JsonValue.HasCall | std/capnp/json/json.capnp.go:203-209 | False whenever the tag is not `call`. Otherwise it is true iff slot 0 is set or unreadable. |
| JsonValue.SetCall | std/capnp/json/json.capnp.go:211-214 | Returns iff the tag and slot 0 fit. `Which` is then `call`, `Call` reads the struct back. `HasCall` holds iff a struct was given; the Go zero value (`None`) is stored as null and reads back as the empty struct. |
| JsonValue.NewCall | std/capnp/json/json.capnp.go:216-226 | Sets tag `call` and stores a fresh zeroed `JsonValue_Call` {0, 2} in slot 0, and returns a copy of that struct, which `Call` reads back. |
| JsonValue.SettersFitLayout | std/capnp/json/json.capnp.go:52 | On a struct of at least {16 data, 1 pointer}, no `JsonValue` setter panics. |
| JsonValue.PromiseCall | std/capnp/json/json.capnp.go:254-256 | Keeps the answer and descends into pointer slot 0 beyond where the promise pointed. |
| JsonValue.PromiseCallTargetsCallField | std/capnp/json/json.capnp.go:195-201 | The promise's target is what `Call` reads from the resolved value: slot 0's pointer, or its read error. |
| JsonLayout.NewJsonValue | std/capnp/json/json.capnp.go:51-54 | Size {16 data, 1 pointer}. |
| JsonLayout.NewRootJsonValue | std/capnp/json/json.capnp.go:56-59 | Size {16 data, 1 pointer}. |
| JsonLayout.NewJsonValueList | std/capnp/json/json.capnp.go:232-235 | `n` elements, each of size {16, 1}. |
| JsonLayout.NewField | std/capnp/json/json.capnp.go:263-266 | Size {0 data, 2 pointers}. |
| JsonLayout.NewRootField | std/capnp/json/json.capnp.go:268-271 | Size {0 data, 2 pointers}. |
| JsonLayout.NewFieldList | std/capnp/json/json.capnp.go:331-334 | `n` elements, each of size {0, 2}. |
| JsonLayout.NewCall | std/capnp/json/json.capnp.go:364-367 | Size {0 data, 2 pointers}. |
| JsonLayout.NewRootCall | std/capnp/json/json.capnp.go:369-372 | Size {0 data, 2 pointers}. |
| JsonLayout.NewCallList | std/capnp/json/json.capnp.go:432-435 | `n` elements, each of size {0, 2}. |
| JsonValueField.Name | std/capnp/json/json.capnp.go:283-286 | Reads slot 0 as text, with that slot's read error. |
| JsonValueField.HasName | std/capnp/json/json.capnp.go:288-291 | True iff slot 0 is set or unreadable. |
| JsonValueField.SetName | std/capnp/json/json.capnp.go:298-300 | Returns iff slot 0 exists. `Name` then reads `v`, `HasName` holds iff `v` is non-empty, and `Value` and `HasValue` are unchanged. |
| JsonValueField.Value | std/capnp/json/json.capnp.go:302-305 | Reads slot 1 as a struct, with that slot's read error. |
| JsonValueField.HasValue | std/capnp/json/json.capnp.go:307-310 | True iff slot 1 is set or unreadable. |
| JsonValueField.SetValue | std/capnp/json/json.capnp.go:312-314 | Returns iff slot 1 exists. `Value` then reads `v` back, or the empty struct for the Go zero value (`None`). `HasValue` holds iff a struct was given, and `Name` and `HasName` are unchanged. |
| JsonValueField.NewValue | std/capnp/json/json.capnp.go:316-325 | Stores a fresh zeroed `JsonValue` {16, 1} in slot 1 and returns a copy of it; `Value` reads it back and `HasValue` holds. `Name` and `HasName` are unchanged. |
| JsonValueField.PromiseValue | std/capnp/json/json.capnp.go:355-357 | Keeps the answer and descends into pointer slot 1. |
| JsonValueField.PromiseValueTargetsValueField | std/capnp/json/json.capnp.go:302-305 | The promise's target is what `Value` reads from the resolved field: slot 1's pointer, or its read error. |
| JsonValueCall.Function | std/capnp/json/json.capnp.go:384-387 | Reads slot 0 as text, with that slot's read error. |
| JsonValueCall.HasFunction | std/capnp/json/json.capnp.go:389-392 | True iff slot 0 is set or unreadable. |
| JsonValueCall.SetFunction | std/capnp/json/json.capnp.go:399-401 | Returns iff slot 0 exists. `Function` then reads `v`, `HasFunction` holds iff `v` is non-empty, and `Params` is unchanged. |
| JsonValueCall.Params | std/capnp/json/json.capnp.go:403-406 | Reads slot 1 as a list, with that slot's read error. |
| JsonValueCall.HasParams | std/capnp/json/json.capnp.go:408-411 | True iff slot 1 is set or unreadable. |
| JsonValueCall.SetParams | std/capnp/json/json.capnp.go:413-415 | Returns iff slot 1 exists. `Params` then reads `v` back, or the empty list for the Go zero value (`None`). `HasParams` holds iff a list was given, and `Function` is unchanged. |
| JsonValueCall.NewParams | std/capnp/json/json.capnp.go:417-426 | Stores a fresh list of `n` zeroed `JsonValue`s in slot 1 and returns a copy of it; `Params` reads it back and `HasParams` holds. `Function` and `HasFunction` are unchanged. |
| Books.NewBook | internal/demo/books/books.capnp.go:16-19 | Size {8 data, 1 pointer}. |
| Books.NewRootBook | internal/demo/books/books.capnp.go:21-24 | Size {8 data, 1 pointer}. |
| Books.NewBookList | internal/demo/books/books.capnp.go:66-70 | `n` elements, each of size {8, 1}. |
| Books.Title | internal/demo/books/books.capnp.go:36-39 | Reads slot 0 as text, with that slot's read error. |
| Books.HasTitle | internal/demo/books/books.capnp.go:41-44 | True iff slot 0 is set or unreadable. |
| Books.SetTitle | internal/demo/books/books.capnp.go:51-53 | Returns iff slot 0 exists. `Title` then reads `v`, `HasTitle` holds iff `v` is non-empty, and `PageCount` is unchanged. |
| Books.PageCount | internal/demo/books/books.capnp.go:55-57 | The result is the int32 congruent, modulo 2^32, to the uint32 at data offset 0. |
| Books.SetPageCount | internal/demo/books/books.capnp.go:59-61 | Returns iff bytes 0-3 exist. `PageCount` then reads `v` back for every int32, and the title is unchanged. |
| Books.ReinterpretRoundTrip | internal/demo/books/books.capnp.go:56-60 | `int32(uint32(v)) == v` and `uint32(int32(u)) == u`. |
| Books.FieldsAreIndependent | internal/demo/books/books.capnp.go:17 | On a struct of `Book` size neither setter panics. Setting title and page count in either order reads back both values. |
| Capnp.SetUint | internal/demo/books/books.capnp.go:60 | `SetUint32` and the other integer setters. The field reads back the value written, and no byte outside it and no pointer changes. A field past the data section panics. |
| Capnp.GetPipeline | std/capnp/json/json.capnp.go:254-256 | `GetPipeline(off)` keeps the answer. It transforms any root exactly as the old transform followed by one descent into slot `off`. |

## Left out

- Goroutines, locks and channels: `go ec.flushQueue()`, the per-call settle goroutine, `sync.Once`, `RWMutex`, and the `resolved` channel. Every operation is one atomic step.
  - An iteration of `flushQueue` peeks, dispatches and pops under one step. The source drops the lock between peeking and popping, so a concurrent `Close` could interleave there; that race is not modelled.
  - A dispatched call's later settlement of its Fulfiller is the `Dispatched` event, not an asynchronous `Fulfill` or `Reject`.
- `Done`, `Struct` and `PipelineClose`. `Done` only returns the `resolved` channel, which the model does not have. `Struct` and `PipelineClose` wait on that channel and then forward to the answer `Peek` returns.
- The library code the core calls has no source in this model. `Capnp` models some of it abstractly, from the library's documented behaviour: the `Struct` and `Ptr` primitives (`Uint`/`SetUint`, `Bit`/`SetBit`, `ReadPtr`/`SetPtr`, `SetText`), `NewStruct`, `NewCompositeList` and `capnp.TransformPtr`. `Call.Copy`, `ImmediateAnswer`, `ErrorAnswer` and the `internal/queue` package are reduced to constructors, a parameter and sequences.
  - None of the following comes from the modelled files: the setter panic text, `SetText` storing a null pointer for `""`, and how `TransformPtr` walks.
  - `TransformPtr` is a walk over pointer slots. A read error stops it, a non-struct is read as the empty struct, and a slot past the end is null.
  - The default values a `PipelineOp` may carry are not modelled.
  - The setter panic message is the library's `"capnp: set field outside struct boundaries"`.
  - `Call.Copy` is a caller-supplied function that may fail.
  - The queue package is a `seq` with capacity 64.
- Segments, the wire encoding of pointers, arena allocation and cross-segment copying.
  - A pointer slot holds the value it refers to.
  - Allocation errors of `NewJsonValue_List` and the like are not modelled, nor the error `SetPtr` can return.
  - So the `New*` members and setters only fail by panicking out of bounds.
  - `Struct.Ptr` does not model the traversal limit apart from a pointer that fails to read (`BadPtr`).
- Nil capability-table entries and a nil `*capnp.Call`: clients are `Hook` or `Embargoed` values.
- Negative list sizes passed to `NewArray`, `NewObject` or `NewParams`: sizes are `nat`.
- `math.Float64bits` and `Float64frombits`: `Number` stores and returns the 64-bit pattern with no IEEE interpretation.
- The text-marshalling `String()` methods of structs and lists, `ReadRoot*`, the `*_List.At` and `Set` methods, the `*_Promise.Struct` methods, the schema blobs and `init`'s schema registration. None of these is part of this model.
- `NameBytes`, `FunctionBytes` and `TitleBytes`: each reads the same slot as its text getter, as `JsonValue.String_Bytes` does for `string_`.
- fixed.go and capnpc-go/capnpc-go_test.go: two field assignments, and generator tests whose code under test is not part of this model.
- Fulfiller.Fulfill: Go ranges over the group map in random order. A table write that panics may leave earlier entries written, but the run ends with the panic either way, and the model returns only the panic.
- Fulfiller.Fulfill: `ctab` stands for `s.Segment().Message().CapTable`, and the struct has no segment in this model. Go panics on a struct without a segment, such as the zero `capnp.Struct{}`, after setting the answer. The model returns normally for `Struct([], [])` given any `ctab` that covers the targets.
- Fulfiller.Fulfill: the Go runtime's panic message also names the index and the table length; the model keeps only "runtime error: index out of range".
- Fulfiller.Reject: the source zeroes each queue entry and keeps the zeroed slice. The model keeps an empty queue, which no later operation can tell apart.
- JsonValue.NewArray: the result is a copy. Writes through it do not reach slot 0, unlike Go, where the returned list shares storage with the slot.
- JsonValue.NewObject: the result is a copy. Writes through it do not reach slot 0, unlike Go, where the returned list shares storage with the slot.
- JsonValue.NewCall: the result is a copy. Writes through it do not reach slot 0, unlike Go, where the returned struct shares storage with the slot.
- JsonValueField.NewValue: the result is a copy. Writes through it do not reach slot 1, unlike Go, where the returned struct shares storage with the slot.
- JsonValueCall.NewParams: the result is a copy. Writes through it do not reach slot 1, unlike Go, where the returned list shares storage with the slot.
- Embargo.NewEmbargoClient: the source starts the flush goroutine here. The model leaves flushing to `FlushStep`, `FlushQueue` and `EmbargoRuns`.

=== FILE: books.dfy ===
/** The generated `Book` accessors: `pageCount` (an int32) in data bytes 0-3 and
    `title` (text) in pointer slot 0, in a struct of 8 data bytes and 1 pointer. */
module Books {
  import opened Wrappers
  import opened Capnp

  type Int32 = x: int | -0x8000_0000 <= x < 0x8000_0000
  type Uint32 = x: int | 0 <= x < 0x1_0000_0000

  const BookSize := ObjectSize(8, 1)

  /** Go's `uint32(v)` on an int32: the unique uint32 congruent to `v` modulo 2^32. */
  function ToUint32(v: Int32): (u: Uint32)
    ensures u % 0x1_0000_0000 == v % 0x1_0000_0000
  {
    if v < 0 then v + 0x1_0000_0000 else v
  }

  /** Go's `int32(u)` on a uint32: the unique int32 congruent to `u` modulo 2^32. */
  function ToInt32(u: Uint32): (v: Int32)
    ensures v % 0x1_0000_0000 == u % 0x1_0000_0000
  {
    if u >= 0x8000_0000 then u - 0x1_0000_0000 else u
  }

  /** Two's-complement reinterpretation is a bijection between int32 and uint32. */
  lemma ReinterpretRoundTrip(v: Int32, u: Uint32)
    ensures ToInt32(ToUint32(v)) == v
    ensures ToUint32(ToInt32(u)) == u
  {
  }

  function NewBook(): (r: Struct)
    ensures SizeOf(r) == ObjectSize(8, 1)
  {
    NewStruct(BookSize)
  }

  function NewRootBook(): (r: Struct)
    ensures SizeOf(r) == ObjectSize(8, 1)
  {
    NewStruct(BookSize)
  }

  function NewBookList(n: nat): (r: seq<Struct>)
    ensures |r| == n && forall i :: 0 <= i < n ==> SizeOf(r[i]) == ObjectSize(8, 1)
  {
    NewCompositeList(BookSize, n)
  }

  /** `Title`: the text in pointer slot 0. */
  function Title(s: Struct): (r: Fetched<string>)
    ensures r.err == ReadPtr(s, 0).err
    ensures r.err.None? && 0 < |s.ptrs| && s.ptrs[0].TextPtr? ==> r.value == s.ptrs[0].text
  {
    var p := ReadPtr(s, 0);
    Fetched(AsText(p.value), p.err)
  }

  /** `HasTitle`: slot 0 holds a pointer, or reading it fails. */
  predicate HasTitle(s: Struct)
    ensures HasTitle(s) <==> (0 < |s.ptrs| && s.ptrs[0] != NullPtr)
  {
    HasPtr(s, 0)
  }

  /** `SetTitle(v)`: text in slot 0; the page count is untouched. */
  function SetTitle(s: Struct, v: string): (r: Outcome<Struct>)
    ensures r.Returns? <==> |s.ptrs| >= 1
    ensures r.Returns? ==> Title(r.value) == Fetched(v, None)
    ensures r.Returns? ==> (HasTitle(r.value) <==> v != "")
    ensures r.Returns? ==> PageCount(r.value) == PageCount(s)
  {
    SetText(s, 0, v)
  }

  /** `PageCount`: the uint32 at data offset 0 read back as an int32. */
  function PageCount(s: Struct): (r: Int32)
    ensures r % 0x1_0000_0000 == Uint(s, 0, 4) % 0x1_0000_0000
  {
    Pow256Widths();
    ToInt32(Uint(s, 0, 4))
  }

  /** `SetPageCount(v)`: stores `uint32(v)` at data offset 0; `PageCount()` then reads `v`
      for every int32, and the title slot is untouched. */
  function SetPageCount(s: Struct, v: Int32): (r: Outcome<Struct>)
    ensures r.Returns? <==> |s.data| >= 4
    ensures r.Panic? ==> r.message == OutOfBounds
    ensures r.Returns? ==> PageCount(r.value) == v
    ensures r.Returns? ==> Title(r.value) == Title(s) && HasTitle(r.value) == HasTitle(s)
  {
    Pow256Widths();
    var t :- SetUint(s, 0, 4, ToUint32(v));
    ReinterpretRoundTrip(v, 0);
    Returns(t)
  }

  /** Both fields fit the `Book` layout: on a struct of `Book` size neither setter panics,
      and setting one field in either order leaves the other readable as set. */
  lemma {:induction false} FieldsAreIndependent(s: Struct, title: string, pages: Int32)
    requires HasLayout(s, BookSize)
    ensures SetTitle(s, title).Returns? && SetPageCount(s, pages).Returns?
    ensures var t := SetTitle(SetPageCount(s, pages).value, title).value;
            PageCount(t) == pages && Title(t) == Fetched(title, None)
    ensures var t := SetPageCount(SetTitle(s, title).value, pages).value;
            PageCount(t) == pages && Title(t) == Fetched(title, None)
  {
  }
}

=== FILE: capnp.dfy ===
/** An abstract Cap'n Proto struct: a data section of bytes and a pointer section of
    numbered slots, with the read/write primitives the generated accessors use
    (`Struct.Uint16`, `SetUint16`, `Bit`, `SetBit`, `Ptr`, `SetPtr`, `SetText`, ...).
    Segments, the wire encoding of pointers and arena allocation are abstracted away:
    a pointer slot holds the value it refers to.
 */
module Capnp {
  import opened Wrappers

  /** One byte of a data section. */
  type Byte = bv8

  /** A Go `error` value built by `errors.New`: identified by its message. */
  datatype Error = Error(message: string)

  /** `capnp.ErrNullClient`: a pipelined call whose target is not a capability. */
  const ErrNullClient := Error("capnp: call on null client")

  /** The panic raised by a setter whose field lies outside the struct. */
  const OutOfBounds := "capnp: set field outside struct boundaries"

  /** `capnp.ObjectSize`: data section size in bytes and number of pointer slots. */
  datatype ObjectSize = ObjectSize(dataSize: nat, pointerCount: nat)

  datatype Struct = Struct(data: seq<Byte>, ptrs: seq<Ptr>)

  /** What a pointer slot refers to. `BadPtr` is a pointer that cannot be followed
      (malformed, out of bounds, or over the traversal limit); reading it fails. */
  datatype Ptr =
    | NullPtr
    | StructPtr(target: Struct)
    | ListPtr(elems: seq<Struct>)
    | TextPtr(text: string)
    | InterfacePtr(cap: nat)
    | BadPtr(err: Error)

  /** A pointer a writer can store: `SetPtr` is never handed an undecodable pointer. */
  type StoredPtr = p: Ptr | !p.BadPtr? witness NullPtr

  /** A Go `(T, error)` result whose value is meaningful even when the error is set. */
  datatype Fetched<+T> = Fetched(value: T, err: Option<Error>)

  function SizeOf(s: Struct): ObjectSize {
    ObjectSize(|s.data|, |s.ptrs|)
  }

  /** The struct is at least as large as `size`, so every field of that layout is in range. */
  predicate HasLayout(s: Struct, size: ObjectSize) {
    |s.data| >= size.dataSize && |s.ptrs| >= size.pointerCount
  }

  /** `capnp.NewStruct` / `NewRootStruct`: a zero-filled struct of the given size. */
  function NewStruct(size: ObjectSize): (r: Struct)
    ensures SizeOf(r) == size
    ensures forall i :: 0 <= i < |r.data| ==> r.data[i] == 0
    ensures forall i :: 0 <= i < |r.ptrs| ==> r.ptrs[i] == NullPtr
  {
    Struct(seq(size.dataSize, _ => 0), seq(size.pointerCount, _ => NullPtr))
  }

  /** `capnp.NewCompositeList`: `n` zero-filled elements, each of the given size. */
  function NewCompositeList(size: ObjectSize, n: nat): (r: seq<Struct>)
    ensures |r| == n
    ensures forall i :: 0 <= i < n ==> r[i] == NewStruct(size)
  {
    seq(n, _ => NewStruct(size))
  }

  // ---------------------------------------------------------------------------
  // Data section: little-endian unsigned integers and single bits.

  function Pow256(n: nat): (r: nat)
    ensures r > 0
  {
    if n == 0 then 1 else 256 * Pow256(n - 1)
  }

  /** The ranges of the 16-, 32- and 64-bit fields. */
  lemma Pow256Widths()
    ensures Pow256(2) == 0x1_0000
    ensures Pow256(4) == 0x1_0000_0000
    ensures Pow256(8) == 0x1_0000_0000_0000_0000
  {
    assert Pow256(1) == 0x100;
    assert Pow256(3) == 0x100_0000;
    assert Pow256(5) == 0x100_0000_0000;
    assert Pow256(6) == 0x1_0000_0000_0000;
    assert Pow256(7) == 0x100_0000_0000_0000;
  }

  /** The little-endian value of the `n` bytes starting at `off`. */
  function ReadLE(d: seq<Byte>, off: nat, n: nat): (v: nat)
    requires off + n <= |d|
    ensures v < Pow256(n)
    decreases n
  {
    if n == 0 then 0 else d[off] as nat + 256 * ReadLE(d, off + 1, n - 1)
  }

  /** Store `v` (reduced modulo 256^n) little-endian in the `n` bytes starting at `off`. */
  function WriteLE(d: seq<Byte>, off: nat, n: nat, v: nat): (w: seq<Byte>)
    requires off + n <= |d|
    ensures |w| == |d|
    ensures forall i :: 0 <= i < |d| && !(off <= i < off + n) ==> w[i] == d[i]
    decreases n
  {
    if n == 0 then d else WriteLE(d[off := (v % 256) as Byte], off + 1, n - 1, v / 256)
  }

  lemma ByteRoundTrip(x: nat)
    requires x < 256
    ensures (x as Byte) as nat == x
  {
  }

  /** Reading back what was written yields the written value. */
  lemma {:induction false} ReadAfterWriteLE(d: seq<Byte>, off: nat, n: nat, v: nat)
    requires off + n <= |d|
    requires v < Pow256(n)
    ensures ReadLE(WriteLE(d, off, n, v), off, n) == v
    decreases n
  {
    if n > 0 {
      var lo, hi := v % 256, v / 256;
      assert v == lo + 256 * hi;
      assert hi < Pow256(n - 1);
      ByteRoundTrip(lo);
      var d1 := d[off := lo as Byte];
      var w := WriteLE(d1, off + 1, n - 1, hi);
      ReadAfterWriteLE(d1, off + 1, n - 1, hi);
      assert w[off] as nat == lo;
      assert ReadLE(w, off, n) == w[off] as nat + 256 * ReadLE(w, off + 1, n - 1);
    }
  }

  /** A read only depends on the bytes it covers. */
  lemma {:induction false} ReadLEDependsOnRange(d: seq<Byte>, e: seq<Byte>, off: nat, n: nat)
    requires off + n <= |d| && off + n <= |e|
    requires forall i :: off <= i < off + n ==> d[i] == e[i]
    ensures ReadLE(d, off, n) == ReadLE(e, off, n)
    decreases n
  {
    if n > 0 {
      ReadLEDependsOnRange(d, e, off + 1, n - 1);
    }
  }

  /** `Struct.Uint16/Uint32/Uint64` (width 2, 4, 8): a field that does not fit reads as 0. */
  function Uint(s: Struct, off: nat, width: nat): (v: nat)
    ensures v < Pow256(width)
    ensures off + width > |s.data| ==> v == 0
  {
    if off + width <= |s.data| then ReadLE(s.data, off, width) else 0
  }

  /** `Struct.SetUint16/SetUint32/SetUint64`: panics when the field does not fit;
      otherwise the field reads back as `v` and no other byte or pointer changes. */
  function SetUint(s: Struct, off: nat, width: nat, v: nat): (r: Outcome<Struct>)
    requires v < Pow256(width)
    ensures r.Returns? <==> off + width <= |s.data|
    ensures r.Panic? ==> r.message == OutOfBounds
    ensures r.Returns? ==> Uint(r.value, off, width) == v
    ensures r.Returns? ==> |r.value.data| == |s.data| && r.value.ptrs == s.ptrs
    ensures r.Returns? ==> forall i :: 0 <= i < |s.data| && !(off <= i < off + width) ==>
                                       r.value.data[i] == s.data[i]
  {
    if off + width <= |s.data| then
      ReadAfterWriteLE(s.data, off, width, v);
      Returns(s.(data := WriteLE(s.data, off, width, v)))
    else
      Panic(OutOfBounds)
  }

  /** Writing one field leaves a field over disjoint bytes reading as before. */
  lemma DisjointUintUnchanged(s: Struct, t: Struct, off: nat, width: nat)
    requires |t.data| == |s.data|
    requires forall i :: 0 <= i < |s.data| && off <= i < off + width ==> t.data[i] == s.data[i]
    ensures Uint(t, off, width) == Uint(s, off, width)
  {
    if off + width <= |s.data| {
      ReadLEDependsOnRange(s.data, t.data, off, width);
    }
  }

  function BitMask(n: nat): Byte {
    (1 as Byte) << ((n % 8) as bv8)
  }

  /** `Struct.Bit(n)`: bit `n % 8` of byte `n / 8`; a bit outside the struct reads false. */
  function Bit(s: Struct, n: nat): bool {
    if n / 8 < |s.data| then s.data[n / 8] & BitMask(n) != 0 else false
  }

  /** `Struct.SetBit(n, v)`: panics outside the struct; otherwise only bit `n` changes. */
  function SetBit(s: Struct, n: nat, v: bool): (r: Outcome<Struct>)
    ensures r.Returns? <==> n / 8 < |s.data|
    ensures r.Panic? ==> r.message == OutOfBounds
    ensures r.Returns? ==> Bit(r.value, n) == v
    ensures r.Returns? ==> |r.value.data| == |s.data| && r.value.ptrs == s.ptrs
    ensures r.Returns? ==> forall i :: 0 <= i < |s.data| && i != n / 8 ==> r.value.data[i] == s.data[i]
  {
    var b := n / 8;
    if b < |s.data| then
      var old_ := s.data[b];
      var new_ := if v then old_ | BitMask(n) else old_ & !BitMask(n);
      Returns(s.(data := s.data[b := new_]))
    else
      Panic(OutOfBounds)
  }

  // ---------------------------------------------------------------------------
  // Pointer section.

  /** `Struct.Ptr(i)`: a slot past the pointer section reads as null with no error;
      a slot holding an undecodable pointer reads as null with its error. */
  function ReadPtr(s: Struct, i: nat): (r: Fetched<Ptr>)
    ensures r.err.Some? <==> i < |s.ptrs| && s.ptrs[i].BadPtr?
    ensures r.err.Some? ==> r.value == NullPtr && r.err.value == s.ptrs[i].err
    ensures r.err.None? ==> r.value == (if i < |s.ptrs| then s.ptrs[i] else NullPtr)
  {
    if i >= |s.ptrs| then Fetched(NullPtr, None)
    else match s.ptrs[i]
      case BadPtr(e) => Fetched(NullPtr, Some(e))
      case p => Fetched(p, None)
  }

  /** The generated `HasX` test: `p.IsValid() || err != nil`. */
  predicate HasPtr(s: Struct, i: nat) {
    var r := ReadPtr(s, i);
    r.value != NullPtr || r.err.Some?
  }

  /** `Struct.SetPtr(i, p)`: panics past the pointer section; otherwise only slot `i` changes. */
  function SetPtr(s: Struct, i: nat, p: StoredPtr): (r: Outcome<Struct>)
    ensures r.Returns? <==> i < |s.ptrs|
    ensures r.Panic? ==> r.message == OutOfBounds
    ensures r.Returns? ==> ReadPtr(r.value, i) == Fetched(p, None)
    ensures r.Returns? ==> r.value.data == s.data && |r.value.ptrs| == |s.ptrs|
    ensures r.Returns? ==> forall j :: 0 <= j < |s.ptrs| && j != i ==> r.value.ptrs[j] == s.ptrs[j]
  {
    if i < |s.ptrs| then Returns(s.(ptrs := s.ptrs[i := p])) else Panic(OutOfBounds)
  }

  /** `Struct.SetText(i, v)`: stores a text pointer in slot `i`, or a null pointer when
      `v` is empty; either way the slot reads back as the text `v`. */
  function SetText(s: Struct, i: nat, v: string): (r: Outcome<Struct>)
    ensures r.Returns? <==> i < |s.ptrs|
    ensures r.Returns? ==> ReadPtr(r.value, i) == Fetched(if v == "" then NullPtr else TextPtr(v), None)
    ensures r.Returns? ==> AsText(ReadPtr(r.value, i).value) == v && (HasPtr(r.value, i) <==> v != "")
    ensures r.Returns? ==> r.value.data == s.data && |r.value.ptrs| == |s.ptrs|
    ensures r.Returns? ==> forall j :: 0 <= j < |s.ptrs| && j != i ==> r.value.ptrs[j] == s.ptrs[j]
  {
    SetPtr(s, i, if v == "" then NullPtr else TextPtr(v))
  }

  /** The pointer `ToPtr()` gives for a list or struct value that may be Go's zero value
      (`None`), which is not a valid pointer and is stored as null. */
  function ListToPtr(v: Option<seq<Struct>>): StoredPtr {
    if v.Some? then ListPtr(v.value) else NullPtr
  }

  function StructToPtr(v: Option<Struct>): StoredPtr {
    if v.Some? then StructPtr(v.value) else NullPtr
  }

  /** What a list getter reads back after storing `v`: the zero value reads as empty. */
  function ListOrEmpty(v: Option<seq<Struct>>): seq<Struct> {
    if v.Some? then v.value else []
  }

  /** What a struct getter reads back after storing `v`: the zero value reads as the empty struct. */
  function StructOrEmpty(v: Option<Struct>): Struct {
    if v.Some? then v.value else Struct([], [])
  }

  /** `Ptr.Struct()`: the target of a struct pointer, otherwise the empty struct. */
  function AsStruct(p: Ptr): Struct {
    if p.StructPtr? then p.target else Struct([], [])
  }

  /** `Ptr.List()`: the elements of a list pointer, otherwise the empty list. */
  function AsList(p: Ptr): seq<Struct> {
    if p.ListPtr? then p.elems else []
  }

  /** `Ptr.Text()` / `Ptr.TextBytes()`: the text of a text pointer, otherwise "". */
  function AsText(p: Ptr): string {
    if p.TextPtr? then p.text else ""
  }

  // ---------------------------------------------------------------------------
  // Calls, pipeline transforms and promises.

  /** `capnp.Call`: the interface and method to invoke and the parameter struct. */
  datatype Call = Call(interfaceId: nat, methodId: nat, params: Struct)

  /** `capnp.PipelineOp`: descend into pointer slot `field` (default values are not modelled). */
  datatype PipelineOp = PipelineOp(field: nat)

  /** One descent: read slot `op.field` of `p` viewed as a struct. */
  function Descend(p: Ptr, op: PipelineOp): Result<Ptr, Error> {
    var r := ReadPtr(AsStruct(p), op.field);
    if r.err.Some? then Failure(r.err.value) else Success(r.value)
  }

  /** `capnp.TransformPtr`: follow a pipeline transform from `p`; the first read error stops it. */
  function TransformPtr(p: Ptr, transform: seq<PipelineOp>): Result<Ptr, Error>
    decreases |transform|
  {
    if |transform| == 0 then Success(p)
    else match Descend(p, transform[0])
      case Failure(e) => Failure(e)
      case Success(q) => TransformPtr(q, transform[1..])
  }

  /** Extending a transform by one op descends once more from where the shorter one ended. */
  lemma {:induction false} TransformPtrSnoc(p: Ptr, transform: seq<PipelineOp>, op: PipelineOp)
    ensures TransformPtr(p, transform + [op]) ==
            match TransformPtr(p, transform)
            case Failure(e) => Failure(e)
            case Success(q) => Descend(q, op)
    decreases |transform|
  {
    if |transform| == 0 {
      assert transform + [op] == [op];
    } else {
      assert (transform + [op])[1..] == transform[1..] + [op];
      match Descend(p, transform[0])
      case Failure(e) =>
      case Success(q) => TransformPtrSnoc(q, transform[1..], op);
    }
  }

  lemma DescendAfter(transform: seq<PipelineOp>, op: PipelineOp)
    ensures forall root :: TransformPtr(root, transform + [op]) ==
              match TransformPtr(root, transform)
              case Failure(e) => Failure(e)
              case Success(q) => Descend(q, op)
  {
    forall root {
      TransformPtrSnoc(root, transform, op);
    }
  }

  /** `capnp.Pipeline`: an answer together with the transform that selects a value inside it. */
  datatype Pipeline<+A> = Pipeline(answer: A, transform: seq<PipelineOp>)

  /** `Pipeline.GetPipeline(off)`: the same answer, one descent further, into slot `off`. */
  function GetPipeline<A>(p: Pipeline<A>, off: nat): (r: Pipeline<A>)
    ensures r.answer == p.answer
    ensures forall root :: TransformPtr(root, r.transform) ==
              match TransformPtr(root, p.transform)
              case Failure(e) => Failure(e)
              case Success(q) => Descend(q, PipelineOp(off))
  {
    DescendAfter(p.transform, PipelineOp(off));
    Pipeline(p.answer, p.transform + [PipelineOp(off)])
  }
}

=== FILE: embargo.dfy ===
/** `embargoClient`: a client wrapper whose queue of embargoed calls must reach the
    wrapped client before anything else does. Each operation is one atomic step under
    the client's lock; the background `flushQueue` goroutine is modelled by `FlushStep`
    (one loop iteration) and `FlushQueue` (the whole loop). */
module Embargo {
  import opened Wrappers
  import Capnp
  import opened Rpc

  /** `newEmbargoClient`: copies the seed queue into a buffer of `callQueueSize` slots,
      so at most the first 64 calls are kept. */
  function NewEmbargoClient(client: Client, queue: seq<ECall>): (ec: EmbargoClient)
    ensures ec.client == client
    ensures |ec.q| <= CallQueueSize && |ec.q| <= |queue| && ec.q == queue[..|ec.q|]
    ensures |queue| <= CallQueueSize ==> ec.q == queue
    ensures |queue| > CallQueueSize ==> |ec.q| == CallQueueSize
  {
    EmbargoClient(client, if |queue| <= CallQueueSize then queue else queue[..CallQueueSize])
  }

  /** `isPassthrough`: nothing is waiting, so calls may go straight through; equivalently,
      flushing has nothing left to dispatch. */
  predicate IsPassthrough(ec: EmbargoClient)
    ensures IsPassthrough(ec) <==> FlushQueue(ec).events == []
    ensures IsPassthrough(ec) ==> FlushStep(ec) == Flushed(ec, [])
  {
    |ec.q| == 0
  }

  /** `WrappedClient`: nil while calls are still embargoed, the wrapped client afterwards. */
  function WrappedClient(ec: EmbargoClient): (r: Option<Client>)
    ensures r.None? <==> |ec.q| > 0
    ensures r.Some? ==> r.value == ec.client
  {
    if IsPassthrough(ec) then Some(ec.client) else None
  }

  /** The result of a call on an embargo client: its next state, the answer handed to the
      caller, and the events of the step. */
  datatype Invoked = Invoked(ec: EmbargoClient, answer: Answer, events: seq<Event>)

  /** `push`: copy the call (a failed copy is answered with its error), then append it with
      a new Fulfiller unless the queue is full. `copy` stands for `Call.Copy`. */
  function Push(ec: EmbargoClient, cl: Capnp.Call, copy: Capnp.Call -> Result<Capnp.Call, Capnp.Error>,
                child: FulfillerId): (r: Invoked)
    ensures r.ec.client == ec.client
    ensures copy(cl).Failure? ==> r == Invoked(ec, ErrorAnswer(copy(cl).error), [])
    ensures copy(cl).Success? && |ec.q| >= CallQueueSize ==>
              r == Invoked(ec, ErrorAnswer(ErrCallQueueFull), [])
    ensures copy(cl).Success? && |ec.q| < CallQueueSize ==>
              var e := ECall(copy(cl).value, child);
              r == Invoked(ec.(q := ec.q + [e]), Pending(child), [Enqueued(e)])
    ensures |ec.q| <= CallQueueSize ==> |r.ec.q| <= CallQueueSize
  {
    match copy(cl)
    case Failure(err) => Invoked(ec, ErrorAnswer(err), [])
    case Success(cc) =>
      if |ec.q| >= CallQueueSize then Invoked(ec, ErrorAnswer(ErrCallQueueFull), [])
      else
        var e := ECall(cc, child);
        Invoked(ec.(q := ec.q + [e]), Pending(child), [Enqueued(e)])
  }

  /** `Call`: forwards straight to the wrapped client when the queue is empty, otherwise
      queues behind the embargoed calls. Either way the state never changes between
      passthrough and embargoed. */
  function Call(ec: EmbargoClient, cl: Capnp.Call, copy: Capnp.Call -> Result<Capnp.Call, Capnp.Error>,
                child: FulfillerId): (r: Invoked)
    ensures r.ec.client == ec.client
    ensures IsPassthrough(ec) ==>
              r == Invoked(ec, ClientCall(ec.client, cl), [Forwarded(ec.client, cl)])
    ensures !IsPassthrough(ec) ==> r == Push(ec, cl, copy, child) && !IsPassthrough(r.ec)
    ensures IsPassthrough(r.ec) <==> IsPassthrough(ec)
  {
    if IsPassthrough(ec) then Invoked(ec, ClientCall(ec.client, cl), [Forwarded(ec.client, cl)])
    else Push(ec, cl, copy, child)
  }

  /** A state after some flushing or closing, and the events of those steps. */
  datatype Flushed = Flushed(ec: EmbargoClient, events: seq<Event>)

  /** One iteration of `flushQueue`: dispatch the head of the queue to the wrapped client,
      then pop it. On an empty queue the loop has ended and nothing happens. */
  function FlushStep(ec: EmbargoClient): (r: Flushed)
    ensures r.ec.client == ec.client
    ensures |ec.q| == 0 ==> r == Flushed(ec, [])
    ensures |ec.q| > 0 ==> ec.q == [ec.q[0]] + r.ec.q && r.events == [Dispatched(ec.client, ec.q[0])]
  {
    if |ec.q| == 0 then Flushed(ec, [])
    else Flushed(ec.(q := ec.q[1..]), [Dispatched(ec.client, ec.q[0])])
  }

  /** `flushQueue`: repeat `FlushStep` until the queue is empty. Every queued call is
      dispatched to the wrapped client, head first, and the client ends in passthrough. */
  function FlushQueue(ec: EmbargoClient): (r: Flushed)
    ensures r.ec == EmbargoClient(ec.client, [])
    ensures |r.events| == |ec.q|
    ensures forall i :: 0 <= i < |ec.q| ==> r.events[i] == Dispatched(ec.client, ec.q[i])
    decreases |ec.q|
  {
    if |ec.q| == 0 then Flushed(ec, [])
    else
      var step := FlushStep(ec);
      var rest := FlushQueue(step.ec);
      Flushed(rest.ec, step.events + rest.events)
  }

  /** The loop of `Close`: pop every queued call and reject its Fulfiller with
      `errQueueCallCancel`. */
  function CancelAll(q: seq<ECall>): (events: seq<Event>)
    ensures |events| == |q|
    ensures forall i :: 0 <= i < |q| ==> events[i] == Cancelled(q[i], ErrQueueCallCancel)
  {
    if |q| == 0 then [] else [Cancelled(q[0], ErrQueueCallCancel)] + CancelAll(q[1..])
  }

  /** The result of `Close`: the emptied client, the events, and the error it returns. */
  datatype Closing = Closing(ec: EmbargoClient, events: seq<Event>, err: Option<Capnp.Error>)

  /** `Close`: cancel every queued call in queue order, empty the queue, then close the
      wrapped client exactly once and return what that close returned. The wrapped client's
      `Close` is outside this model; `clientErr` stands for its result. */
  function Close(ec: EmbargoClient, clientErr: Option<Capnp.Error>): (r: Closing)
    ensures r.ec == EmbargoClient(ec.client, [])
    ensures |r.events| == |ec.q| + 1
    ensures forall i :: 0 <= i < |ec.q| ==> r.events[i] == Cancelled(ec.q[i], ErrQueueCallCancel)
    ensures r.events[|ec.q|] == Closed(ec.client)
    ensures r.err == clientErr
  {
    Closing(EmbargoClient(ec.client, []), CancelAll(ec.q) + [Closed(ec.client)], clientErr)
  }
}

=== FILE: embargo_runs.dfy ===
/** Runs of an embargo client: any interleaving of caller `Call`s, iterations of the
    `flushQueue` goroutine and `Close`, each one atomic step. The properties proved here
    are those the embargo exists for: calls leave in the order they arrived, a call made
    after the queue drained never overtakes a queued one, and everything goes to the one
    wrapped client. */
module EmbargoRuns {
  import opened Wrappers
  import Capnp
  import opened Rpc
  import Embargo

  /** One atomic step of a run. `child` is the Fulfiller a queued call would settle;
      `clientErr` is what the wrapped client's `Close` returns. */
  datatype EmbargoOp =
    | Invoke(call: Capnp.Call, child: FulfillerId)
    | FlushNext
    | CloseClient(clientErr: Option<Capnp.Error>)

  function Apply(ec: EmbargoClient, op: EmbargoOp,
                 copy: Capnp.Call -> Result<Capnp.Call, Capnp.Error>): Embargo.Flushed
  {
    match op
    case Invoke(cl, child) =>
      var r := Embargo.Call(ec, cl, copy, child);
      Embargo.Flushed(r.ec, r.events)
    case FlushNext => Embargo.FlushStep(ec)
    case CloseClient(clientErr) =>
      var r := Embargo.Close(ec, clientErr);
      Embargo.Flushed(r.ec, r.events)
  }

  /** The final state and all events of running `ops` from `ec`. */
  function Run(ec: EmbargoClient, ops: seq<EmbargoOp>,
               copy: Capnp.Call -> Result<Capnp.Call, Capnp.Error>): Embargo.Flushed
    decreases |ops|
  {
    if |ops| == 0 then Embargo.Flushed(ec, [])
    else
      var a := Apply(ec, ops[0], copy);
      var rest := Run(a.ec, ops[1..], copy);
      Embargo.Flushed(rest.ec, a.events + rest.events)
  }

  /** A call as it passes through the client: queued with its Fulfiller, or sent directly. */
  datatype Delivery = Queued(entry: ECall) | Direct(call: Capnp.Call)

  /** The deliveries a queue holds, head first. */
  function Pending(q: seq<ECall>): (r: seq<Delivery>)
    ensures |r| == |q| && forall i :: 0 <= i < |q| ==> r[i] == Queued(q[i])
  {
    seq(|q|, i requires 0 <= i < |q| => Queued(q[i]))
  }

  /** The deliveries that entered the client: calls queued, and calls forwarded at once. */
  function Arrivals(events: seq<Event>): seq<Delivery> {
    if |events| == 0 then []
    else
      (match events[0]
       case Enqueued(e) => [Queued(e)]
       case Forwarded(_, cl) => [Direct(cl)]
       case _ => []) + Arrivals(events[1..])
  }

  /** The deliveries that left the client: calls dispatched or cancelled from the queue,
      and calls forwarded at once. */
  function Departures(events: seq<Event>): seq<Delivery> {
    if |events| == 0 then []
    else
      (match events[0]
       case Dispatched(_, e) => [Queued(e)]
       case Cancelled(e, _) => [Queued(e)]
       case Forwarded(_, cl) => [Direct(cl)]
       case _ => []) + Departures(events[1..])
  }

  lemma {:induction false} ArrivalsAppend(a: seq<Event>, b: seq<Event>)
    ensures Arrivals(a + b) == Arrivals(a) + Arrivals(b)
    decreases |a|
  {
    if |a| == 0 {
      assert a + b == b;
    } else {
      assert (a + b)[0] == a[0];
      assert (a + b)[1..] == a[1..] + b;
      ArrivalsAppend(a[1..], b);
    }
  }

  lemma {:induction false} DeparturesAppend(a: seq<Event>, b: seq<Event>)
    ensures Departures(a + b) == Departures(a) + Departures(b)
    decreases |a|
  {
    if |a| == 0 {
      assert a + b == b;
    } else {
      assert (a + b)[0] == a[0];
      assert (a + b)[1..] == a[1..] + b;
      DeparturesAppend(a[1..], b);
    }
  }

  /** Closing cancels the whole queue, head first. */
  lemma {:induction false} CancelAllDeparts(q: seq<ECall>)
    ensures Departures(Embargo.CancelAll(q)) == Pending(q)
    ensures Arrivals(Embargo.CancelAll(q)) == []
    decreases |q|
  {
    if |q| > 0 {
      var ev := Embargo.CancelAll(q);
      assert ev == [Cancelled(q[0], ErrQueueCallCancel)] + Embargo.CancelAll(q[1..]);
      CancelAllDeparts(q[1..]);
      DeparturesAppend([Cancelled(q[0], ErrQueueCallCancel)], Embargo.CancelAll(q[1..]));
      ArrivalsAppend([Cancelled(q[0], ErrQueueCallCancel)], Embargo.CancelAll(q[1..]));
      assert Pending(q) == [Queued(q[0])] + Pending(q[1..]);
    } else {
      assert Embargo.CancelAll(q) == [];
    }
  }

  /** One step keeps the FIFO balance: what left, then what is still queued, is what was
      queued, then what arrived. */
  lemma ApplyIsFifo(ec: EmbargoClient, op: EmbargoOp,
                    copy: Capnp.Call -> Result<Capnp.Call, Capnp.Error>)
    ensures var a := Apply(ec, op, copy);
            Departures(a.events) + Pending(a.ec.q) == Pending(ec.q) + Arrivals(a.events)
  {
    var a := Apply(ec, op, copy);
    match op
    case Invoke(cl, child) =>
      if !Embargo.IsPassthrough(ec) && copy(cl).Success? && |ec.q| < CallQueueSize {
        assert Pending(a.ec.q) == Pending(ec.q) + [Queued(ECall(copy(cl).value, child))];
      }
    case FlushNext =>
      if |ec.q| > 0 {
        assert Pending(ec.q) == [Queued(ec.q[0])] + Pending(a.ec.q);
      }
    case CloseClient(_) =>
      CancelAllDeparts(ec.q);
      DeparturesAppend(Embargo.CancelAll(ec.q), [Closed(ec.client)]);
      ArrivalsAppend(Embargo.CancelAll(ec.q), [Closed(ec.client)]);
  }

  /** Delivery order: over any run, the calls that left the client (dispatched, cancelled
      or forwarded), followed by those still queued, are exactly the calls that were
      queued at the start followed by the calls that arrived, in the same order. A call
      forwarded directly therefore never overtakes a queued one. */
  lemma {:induction false} DeliveryOrder(ec: EmbargoClient, ops: seq<EmbargoOp>,
                                        copy: Capnp.Call -> Result<Capnp.Call, Capnp.Error>)
    ensures var r := Run(ec, ops, copy);
            Departures(r.events) + Pending(r.ec.q) == Pending(ec.q) + Arrivals(r.events)
    decreases |ops|
  {
    if |ops| > 0 {
      var a := Apply(ec, ops[0], copy);
      var rest := Run(a.ec, ops[1..], copy);
      ApplyIsFifo(ec, ops[0], copy);
      DeliveryOrder(a.ec, ops[1..], copy);
      DeparturesAppend(a.events, rest.events);
      ArrivalsAppend(a.events, rest.events);
      assert Run(ec, ops, copy) == Embargo.Flushed(rest.ec, a.events + rest.events);
      ChainBalance(Departures(a.events), Departures(rest.events), Pending(ec.q), Pending(a.ec.q),
                   Pending(rest.ec.q), Arrivals(a.events), Arrivals(rest.events));
    }
  }

  /** Two consecutive balanced stretches make a balanced whole. */
  lemma ChainBalance<T>(d1: seq<T>, d2: seq<T>, p0: seq<T>, p1: seq<T>, p2: seq<T>, a1: seq<T>, a2: seq<T>)
    requires d1 + p1 == p0 + a1
    requires d2 + p2 == p1 + a2
    ensures (d1 + d2) + p2 == p0 + (a1 + a2)
  {
    calc {
      (d1 + d2) + p2;
      d1 + (d2 + p2);
      d1 + (p1 + a2);
      (d1 + p1) + a2;
      (p0 + a1) + a2;
    }
  }

  /** The event goes to, or closes, the client `c` whenever it names a client at all. */
  predicate AimedAt(e: Event, c: Client) {
    match e
    case Dispatched(cl, _) => cl == c
    case Forwarded(cl, _) => cl == c
    case Closed(cl) => cl == c
    case _ => true
  }

  /** Over any run the wrapped client never changes, every dispatched, forwarded or close
      event goes to it, and the queue never exceeds its capacity. */
  lemma {:induction false} RunKeepsClient(ec: EmbargoClient, ops: seq<EmbargoOp>,
                                         copy: Capnp.Call -> Result<Capnp.Call, Capnp.Error>)
    ensures Run(ec, ops, copy).ec.client == ec.client
    ensures forall i :: 0 <= i < |Run(ec, ops, copy).events| ==> AimedAt(Run(ec, ops, copy).events[i], ec.client)
    ensures |ec.q| <= CallQueueSize ==> |Run(ec, ops, copy).ec.q| <= CallQueueSize
    decreases |ops|
  {
    if |ops| > 0 {
      var a := Apply(ec, ops[0], copy);
      var rest := Run(a.ec, ops[1..], copy);
      RunKeepsClient(a.ec, ops[1..], copy);
      assert forall i :: 0 <= i < |a.events| ==> AimedAt(a.events[i], ec.client);
      var all := a.events + rest.events;
      assert forall i :: |a.events| <= i < |all| ==> all[i] == rest.events[i - |a.events|];
    }
  }

  /** Once the queue is empty it stays empty: from a passthrough client every call is
      forwarded directly and nothing is ever queued again. */
  lemma {:induction false} PassthroughIsPermanent(ec: EmbargoClient, ops: seq<EmbargoOp>,
                                                 copy: Capnp.Call -> Result<Capnp.Call, Capnp.Error>)
    requires Embargo.IsPassthrough(ec)
    ensures Embargo.IsPassthrough(Run(ec, ops, copy).ec)
    ensures forall i :: 0 <= i < |Run(ec, ops, copy).events| ==> !Run(ec, ops, copy).events[i].Enqueued?
    decreases |ops|
  {
    if |ops| > 0 {
      var a := Apply(ec, ops[0], copy);
      var rest := Run(a.ec, ops[1..], copy);
      assert a.events == [] || |a.events| == 1;
      PassthroughIsPermanent(a.ec, ops[1..], copy);
      var all := a.events + rest.events;
      assert forall i :: |a.events| <= i < |all| ==> all[i] == rest.events[i - |a.events|];
    }
  }

  /** The whole `flushQueue` loop is the same as running one `FlushNext` per queued call. */
  lemma {:induction false} FlushQueueIsSteps(ec: EmbargoClient,
                                            copy: Capnp.Call -> Result<Capnp.Call, Capnp.Error>)
    ensures Embargo.FlushQueue(ec) == Run(ec, seq(|ec.q|, _ => FlushNext), copy)
    decreases |ec.q|
  {
    if |ec.q| > 0 {
      var ops := seq(|ec.q|, _ => FlushNext);
      assert ops[0] == FlushNext;
      assert ops[1..] == seq(|ec.q| - 1, _ => FlushNext);
      FlushQueueIsSteps(Embargo.FlushStep(ec).ec, copy);
    }
  }
}

=== FILE: fulfiller.dfy ===
/** `Fulfiller`: a promise for a struct that is resolved exactly once, by `Fulfill` or
    `Reject`, and that queues pipelined calls until then. Every operation is one atomic
    step under the Fulfiller's lock; a panic ends the run. */
module Fulfiller {
  import opened Wrappers
  import opened Capnp
  import opened Rpc
  import Embargo

  /** `pcall`: a queued pipelined call: where in the answer it is aimed, and the call. */
  datatype PCall = PCall(transform: seq<PipelineOp>, ecall: ECall)

  /** The Fulfiller's state: `answer` is nil until resolution. */
  datatype FulfillerState = FulfillerState(answer: Option<Answer>, queue: seq<PCall>)

  /** The zero value: an unresolved Fulfiller with an empty queue. */
  const Unresolved := FulfillerState(None, [])

  /** The state every reachable Fulfiller is in: the queue never exceeds its capacity and
      is empty once an answer is set. */
  predicate Valid(f: FulfillerState) {
    |f.queue| <= CallQueueSize && (f.answer.Some? ==> f.queue == [])
  }

  /** `Peek`: the answer, or nil before resolution. A valid Fulfiller whose answer is set
      holds no queued calls. */
  function Peek(f: FulfillerState): (r: Option<Answer>)
    ensures r.Some? <==> f.answer.Some?
    ensures r.Some? ==> r.value == f.answer.value
    ensures Valid(f) && r.Some? ==> f.queue == []
  {
    f.answer
  }

  // ---------------------------------------------------------------------------
  // Where a queued call lands once the answer is known.

  /** The three outcomes `emptyQueue` distinguishes for a queued call. */
  datatype Target = TransformFailed(err: Error) | NotCapability | Capability(index: nat)

  function TargetOf(pc: PCall, s: Struct): Target {
    match TransformPtr(StructPtr(s), pc.transform)
    case Failure(e) => TransformFailed(e)
    case Success(p) => if p.InterfacePtr? then Capability(p.cap) else NotCapability
  }

  /** Reference definition: the rejections owed to the queue's calls, in queue order. */
  function Rejections(q: seq<PCall>, s: Struct): seq<Event> {
    if |q| == 0 then []
    else
      var head := match TargetOf(q[0], s)
        case TransformFailed(e) => [Rejected(q[0].ecall.f, e)]
        case NotCapability => [Rejected(q[0].ecall.f, ErrNullClient)]
        case Capability(_) => [];
      head + Rejections(q[1..], s)
  }

  /** Reference definition: the calls aimed at capability `c`, in queue order. */
  function Group(q: seq<PCall>, s: Struct, c: nat): seq<ECall> {
    if |q| == 0 then []
    else (if TargetOf(q[0], s) == Capability(c) then [q[0].ecall] else []) + Group(q[1..], s, c)
  }

  /** Some queued call is aimed at capability `c`. */
  predicate Targets(q: seq<PCall>, s: Struct, c: nat) {
    exists i :: 0 <= i < |q| && TargetOf(q[i], s) == Capability(c)
  }

  lemma {:induction false} RejectionsAppend(a: seq<PCall>, b: seq<PCall>, s: Struct)
    ensures Rejections(a + b, s) == Rejections(a, s) + Rejections(b, s)
    decreases |a|
  {
    if |a| > 0 {
      assert (a + b)[0] == a[0];
      assert (a + b)[1..] == a[1..] + b;
      RejectionsAppend(a[1..], b, s);
    } else {
      assert a + b == b;
    }
  }

  lemma {:induction false} GroupAppend(a: seq<PCall>, b: seq<PCall>, s: Struct, c: nat)
    ensures Group(a + b, s, c) == Group(a, s, c) + Group(b, s, c)
    decreases |a|
  {
    if |a| > 0 {
      assert (a + b)[0] == a[0];
      assert (a + b)[1..] == a[1..] + b;
      GroupAppend(a[1..], b, s, c);
    } else {
      assert a + b == b;
    }
  }

  /** A group holds exactly the calls aimed at its capability, and is non-empty exactly
      when some call is aimed there. */
  lemma {:induction false} GroupMembers(q: seq<PCall>, s: Struct, c: nat)
    ensures |Group(q, s, c)| <= |q|
    ensures |Group(q, s, c)| > 0 <==> Targets(q, s, c)
    ensures forall e :: e in Group(q, s, c) <==>
              exists i :: 0 <= i < |q| && q[i].ecall == e && TargetOf(q[i], s) == Capability(c)
    decreases |q|
  {
    if |q| > 0 {
      GroupMembers(q[1..], s, c);
      assert forall i :: 0 < i < |q| ==> q[i] == q[1..][i - 1];
      assert forall i :: 0 <= i < |q| - 1 ==> q[1..][i] == q[i + 1];
    }
  }

  // ---------------------------------------------------------------------------
  // emptyQueue, Fulfill, Reject, PipelineCall.

  /** What `emptyQueue` produces: the per-capability groups and the rejections it made. */
  datatype Drained = Drained(groups: map<nat, seq<ECall>>, rejected: seq<Event>)

  /** `emptyQueue`: one pass over the queue, front to back, rejecting calls whose transform
      fails or whose target is not a capability, and appending the rest to the group of
      their capability index. It agrees with the reference definitions: the rejections
      are `Rejections`, the groups are exactly the targeted capabilities, each group is
      `Group`, and hence each queued call ends in exactly one place. */
  function EmptyQueue(q: seq<PCall>, s: Struct): (r: Drained)
    ensures r.rejected == Rejections(q, s)
    ensures forall c :: c in r.groups <==> Targets(q, s, c)
    ensures forall c :: c in r.groups ==> r.groups[c] == Group(q, s, c)
    decreases |q|
  {
    if |q| == 0 then Drained(map[], [])
    else
      var init, pc := q[..|q| - 1], q[|q| - 1];
      assert q == init + [pc];
      var prev := EmptyQueue(init, s);
      DrainOneAgrees(init, pc, s, prev);
      DrainOne(prev, pc, s)
  }

  /** One iteration of the loop of `emptyQueue`. */
  function DrainOne(d: Drained, pc: PCall, s: Struct): Drained {
    match TargetOf(pc, s)
    case TransformFailed(e) => Drained(d.groups, d.rejected + [Rejected(pc.ecall.f, e)])
    case NotCapability => Drained(d.groups, d.rejected + [Rejected(pc.ecall.f, ErrNullClient)])
    case Capability(c) =>
      var g := if c in d.groups then d.groups[c] else [];
      Drained(d.groups[c := g + [pc.ecall]], d.rejected)
  }

  /** `d` is what draining `q` should produce. */
  ghost predicate Agrees(d: Drained, q: seq<PCall>, s: Struct) {
    && d.rejected == Rejections(q, s)
    && (forall c :: c in d.groups <==> Targets(q, s, c))
    && (forall c :: c in d.groups ==> d.groups[c] == Group(q, s, c))
  }

  lemma TargetsSnoc(q: seq<PCall>, pc: PCall, s: Struct, c: nat)
    ensures Targets(q + [pc], s, c) <==> Targets(q, s, c) || TargetOf(pc, s) == Capability(c)
  {
    var q' := q + [pc];
    if Targets(q', s, c) {
      var i :| 0 <= i < |q'| && TargetOf(q'[i], s) == Capability(c);
      if i < |q| { assert q[i] == q'[i]; }
    }
    if Targets(q, s, c) {
      var i :| 0 <= i < |q| && TargetOf(q[i], s) == Capability(c);
      assert q'[i] == q[i];
    }
    if TargetOf(pc, s) == Capability(c) {
      assert q'[|q|] == pc;
    }
  }

  lemma {:induction false} DrainOneAgrees(q: seq<PCall>, pc: PCall, s: Struct, d: Drained)
    requires Agrees(d, q, s)
    ensures Agrees(DrainOne(d, pc, s), q + [pc], s)
  {
    RejectionsAppend(q, [pc], s);
    assert [pc][1..] == [];
    var r := DrainOne(d, pc, s);
    forall c: nat ensures (c in r.groups <==> Targets(q + [pc], s, c))
                 && (c in r.groups ==> r.groups[c] == Group(q + [pc], s, c)) {
      TargetsSnoc(q, pc, s, c);
      GroupAppend(q, [pc], s, c);
      assert [pc][1..] == [];
      GroupMembers(q, s, c);
    }
  }

  /** The result of a resolution that did not panic: the resolved Fulfiller, the message's
      capability table, and the rejections made on queued calls. */
  datatype Resolution = Resolution(f: FulfillerState, ctab: seq<Client>, events: seq<Event>)

  const IndexOutOfRange := "runtime error: index out of range"

  /** The capability-table update of `Fulfill`: every index with a group is replaced by an
      embargo client wrapping the old entry and seeded with that group. */
  function EmbargoTable(ctab: seq<Client>, groups: map<nat, seq<ECall>>): (t: seq<Client>)
    ensures |t| == |ctab|
    ensures forall i :: 0 <= i < |ctab| && i in groups ==>
              t[i] == Embargoed(Embargo.NewEmbargoClient(ctab[i], groups[i]))
    ensures forall i :: 0 <= i < |ctab| && i !in groups ==> t[i] == ctab[i]
  {
    seq(|ctab|, i requires 0 <= i < |ctab| =>
      if i in groups then Embargoed(Embargo.NewEmbargoClient(ctab[i], groups[i])) else ctab[i])
  }

  /** `Fulfill(s)`: panics if already resolved. Otherwise the answer becomes `s`, every
      queued call whose transform fails or misses a capability is rejected (in queue
      order), and each capability-table entry aimed at by queued calls is wrapped in an
      embargo client holding those calls in queue order; no other entry changes. A queued
      call aimed past the end of the table makes the table write panic. */
  function Fulfill(f: FulfillerState, s: Struct, ctab: seq<Client>): (r: Outcome<Resolution>)
    ensures f.answer.Some? ==> r == Panic("Fulfiller.Fulfill called more than once")
    ensures f.answer.None? ==>
              (r.Returns? <==> forall c: nat :: Targets(f.queue, s, c) ==> c < |ctab|)
    ensures f.answer.None? && r.Panic? ==> r.message == IndexOutOfRange
    ensures r.Returns? ==> r.value.f == FulfillerState(Some(Immediate(s)), [])
    ensures r.Returns? ==> r.value.events == Rejections(f.queue, s)
    ensures r.Returns? ==> |r.value.ctab| == |ctab|
    ensures r.Returns? ==> forall i :: 0 <= i < |ctab| ==>
              r.value.ctab[i] == if Targets(f.queue, s, i)
                                 then Embargoed(Embargo.NewEmbargoClient(ctab[i], Group(f.queue, s, i)))
                                 else ctab[i]
    ensures r.Returns? && |f.queue| <= CallQueueSize ==> forall i :: 0 <= i < |ctab| && Targets(f.queue, s, i) ==>
              r.value.ctab[i] == Embargoed(EmbargoClient(ctab[i], Group(f.queue, s, i)))
  {
    if f.answer.Some? then Panic("Fulfiller.Fulfill called more than once")
    else
      var d := EmptyQueue(f.queue, s);
      if exists c :: c in d.groups && c >= |ctab| then Panic(IndexOutOfRange)
      else
        forall i | 0 <= i < |ctab| && Targets(f.queue, s, i) ensures |Group(f.queue, s, i)| <= |f.queue| {
          GroupMembers(f.queue, s, i);
        }
        Returns(Resolution(FulfillerState(Some(Immediate(s)), []), EmbargoTable(ctab, d.groups), d.rejected))
  }

  /** The loop of `Reject`: reject every queued call's Fulfiller with `err`. */
  function RejectAll(q: seq<PCall>, err: Error): (events: seq<Event>)
    ensures |events| == |q|
    ensures forall i :: 0 <= i < |q| ==> events[i] == Rejected(q[i].ecall.f, err)
  {
    if |q| == 0 then [] else [Rejected(q[0].ecall.f, err)] + RejectAll(q[1..], err)
  }

  /** The result of `Reject`: the resolved Fulfiller and the rejections of its queued calls. */
  datatype Rejection = Rejection(f: FulfillerState, events: seq<Event>)

  /** `Reject(err)`: panics on a nil error before looking at the state, and panics if
      already resolved. Otherwise the answer becomes the error and every queued call is
      rejected with that same error, in queue order. */
  function Reject(f: FulfillerState, err: Option<Error>): (r: Outcome<Rejection>)
    ensures err.None? ==> r == Panic("Fulfiller.Reject called with nil")
    ensures err.Some? && f.answer.Some? ==> r == Panic("Fulfiller.Reject called more than once")
    ensures err.Some? && f.answer.None? ==> r.Returns?
    ensures r.Returns? ==> r.value.f == FulfillerState(Some(ErrorAnswer(err.value)), [])
    ensures r.Returns? ==> |r.value.events| == |f.queue|
    ensures r.Returns? ==> forall i :: 0 <= i < |f.queue| ==>
              r.value.events[i] == Rejected(f.queue[i].ecall.f, err.value)
  {
    if err.None? then Panic("Fulfiller.Reject called with nil")
    else if f.answer.Some? then Panic("Fulfiller.Reject called more than once")
    else Returns(Rejection(FulfillerState(Some(ErrorAnswer(err.value)), []), RejectAll(f.queue, err.value)))
  }

  /** The result of `PipelineCall`: the Fulfiller's next state and the answer returned. */
  datatype Piped = Piped(f: FulfillerState, answer: Answer)

  /** `PipelineCall`: on a resolved Fulfiller, delegate to its answer. Otherwise refuse when
      the queue is full or the call cannot be copied, leaving the queue alone; else append
      one entry with a new child Fulfiller and return that child. `copy` stands for
      `Call.Copy`; `child` is the identity of the new Fulfiller. */
  function PipelineCall(f: FulfillerState, transform: seq<PipelineOp>, call: Call,
                        copy: Call -> Result<Call, Error>, child: FulfillerId): (r: Piped)
    ensures f.answer.Some? ==> r == Piped(f, Pipelined(f.answer.value, transform, call))
    ensures f.answer.None? && |f.queue| == CallQueueSize ==> r == Piped(f, ErrorAnswer(ErrCallQueueFull))
    ensures f.answer.None? && |f.queue| != CallQueueSize && copy(call).Failure? ==>
              r == Piped(f, ErrorAnswer(copy(call).error))
    ensures f.answer.None? && |f.queue| != CallQueueSize && copy(call).Success? ==>
              r.f == FulfillerState(None, f.queue + [PCall(transform, ECall(copy(call).value, child))]) &&
              r.answer == Pending(child)
    ensures r.f.answer == f.answer
    ensures Valid(f) ==> Valid(r.f)
  {
    if f.answer.Some? then Piped(f, Pipelined(f.answer.value, transform, call))
    else if |f.queue| == CallQueueSize then Piped(f, ErrorAnswer(ErrCallQueueFull))
    else match copy(call)
      case Failure(err) => Piped(f, ErrorAnswer(err))
      case Success(cc) => Piped(f.(queue := f.queue + [PCall(transform, ECall(cc, child))]), Pending(child))
  }

  // ---------------------------------------------------------------------------
  // Properties of whole resolutions.

  /** No call is queued twice. */
  predicate DistinctCalls(q: seq<PCall>) {
    forall j, k :: 0 <= j < k < |q| ==> q[j].ecall != q[k].ecall
  }

  /** The queued calls settle distinct child Fulfillers, as each `PipelineCall` makes a new one. */
  predicate DistinctChildren(q: seq<PCall>) {
    forall j, k :: 0 <= j < k < |q| ==> q[j].ecall.f != q[k].ecall.f
  }

  lemma DistinctChildIndex(q: seq<PCall>, i: nat, j: nat)
    requires DistinctChildren(q) && i < |q| && j < |q| && i != j
    ensures q[i].ecall.f != q[j].ecall.f
  {
    if j < i {
      assert q[j].ecall.f != q[i].ecall.f;
    }
  }

  /** Every rejection `emptyQueue` makes is for a queued call that does not reach a capability. */
  lemma {:induction false} RejectionsMembers(q: seq<PCall>, s: Struct)
    ensures forall ev :: ev in Rejections(q, s) ==>
              ev.Rejected? && exists j :: 0 <= j < |q| && !TargetOf(q[j], s).Capability? && q[j].ecall.f == ev.f
    decreases |q|
  {
    if |q| > 0 {
      RejectionsMembers(q[1..], s);
      forall ev | ev in Rejections(q, s)
        ensures ev.Rejected? && exists j :: 0 <= j < |q| && !TargetOf(q[j], s).Capability? && q[j].ecall.f == ev.f
      {
        if ev in Rejections(q[1..], s) {
          var j :| 0 <= j < |q[1..]| && !TargetOf(q[1..][j], s).Capability? && q[1..][j].ecall.f == ev.f;
          assert q[j + 1] == q[1..][j];
        } else {
          assert !TargetOf(q[0], s).Capability? && q[0].ecall.f == ev.f;
        }
      }
    }
  }

  /** Every queued call ends in exactly one place after `emptyQueue`: a call whose
      transform fails or misses a capability is rejected with that error and is in no
      group, and any other call is in the group of its own capability and is not rejected.
      The exclusions need the calls (for the groups) or their child Fulfillers (for the
      rejections) to be distinct, as they are when each has its own child. */
  lemma {:induction false} EachCallLandsOnce(q: seq<PCall>, s: Struct, i: nat)
    requires i < |q|
    ensures TargetOf(q[i], s).TransformFailed? ==>
              Rejected(q[i].ecall.f, TargetOf(q[i], s).err) in Rejections(q, s)
    ensures TargetOf(q[i], s).NotCapability? ==> Rejected(q[i].ecall.f, ErrNullClient) in Rejections(q, s)
    ensures TargetOf(q[i], s).Capability? ==> q[i].ecall in Group(q, s, TargetOf(q[i], s).index)
    ensures DistinctCalls(q) ==>
              forall c :: q[i].ecall in Group(q, s, c) ==> TargetOf(q[i], s) == Capability(c)
    ensures DistinctCalls(q) && !TargetOf(q[i], s).Capability? ==> forall c :: q[i].ecall !in Group(q, s, c)
    ensures DistinctChildren(q) && TargetOf(q[i], s).Capability? ==>
              forall ev :: ev in Rejections(q, s) ==> ev.Rejected? && ev.f != q[i].ecall.f
    decreases i
  {
    if i > 0 {
      EachCallLandsOnce(q[1..], s, i - 1);
      assert q[1..][i - 1] == q[i];
    }
    if TargetOf(q[i], s).Capability? {
      GroupMembers(q, s, TargetOf(q[i], s).index);
    }
    if DistinctCalls(q) {
      forall c | q[i].ecall in Group(q, s, c) ensures TargetOf(q[i], s) == Capability(c) {
        GroupMembers(q, s, c);
        var j :| 0 <= j < |q| && q[j].ecall == q[i].ecall && TargetOf(q[j], s) == Capability(c);
        assert j == i;
      }
    }
    if DistinctChildren(q) && TargetOf(q[i], s).Capability? {
      RejectionsMembers(q, s);
      forall ev | ev in Rejections(q, s) ensures ev.Rejected? && ev.f != q[i].ecall.f {
        var j :| 0 <= j < |q| && !TargetOf(q[j], s).Capability? && q[j].ecall.f == ev.f;
        assert j != i;
        DistinctChildIndex(q, i, j);
      }
    }
  }

  /** Resolution happens at most once: after a successful `Fulfill` or `Reject`, the state
      is valid, `Peek` reports the answer, a second `Fulfill` or `Reject` panics, and
      pipelined calls are delegated to the answer instead of being queued. */
  lemma ResolvesOnce(f: FulfillerState, a: Answer, s: Struct, ctab: seq<Client>, err: Error,
                     transform: seq<PipelineOp>, call: Call,
                     copy: Call -> Result<Call, Error>, child: FulfillerId)
    requires f.answer == Some(a)
    ensures Fulfill(f, s, ctab) == Panic("Fulfiller.Fulfill called more than once")
    ensures Reject(f, Some(err)) == Panic("Fulfiller.Reject called more than once")
    ensures PipelineCall(f, transform, call, copy, child) == Piped(f, Pipelined(a, transform, call))
    ensures Peek(f) == Some(a)
  {
  }

  /** `Fulfill` and `Reject` leave a valid, resolved state. */
  lemma ResolutionIsValid(f: FulfillerState, s: Struct, ctab: seq<Client>, err: Error)
    requires f.answer.None?
    ensures Fulfill(f, s, ctab).Returns? ==> Valid(Fulfill(f, s, ctab).value.f)
    ensures Valid(Reject(f, Some(err)).value.f) && Peek(Reject(f, Some(err)).value.f) == Some(ErrorAnswer(err))
  {
  }

  /** The calls queued on a Fulfiller reach the capability they were aimed at, in the
      order they were queued: once `Fulfill` installs its embargo clients, flushing the
      one at index `c` dispatches exactly `Group(queue, s, c)`, in order, to the entry that
      was in the table before. */
  lemma FulfillThenFlushDelivers(f: FulfillerState, s: Struct, ctab: seq<Client>, c: nat)
    requires f.answer.None? && |f.queue| <= CallQueueSize
    requires forall i: nat :: Targets(f.queue, s, i) ==> i < |ctab|
    requires c < |ctab| && Targets(f.queue, s, c)
    ensures Fulfill(f, s, ctab).Returns? && Fulfill(f, s, ctab).value.ctab[c].Embargoed?
    ensures var ec := Fulfill(f, s, ctab).value.ctab[c].ec;
            var g := Group(f.queue, s, c);
            var flushed := Embargo.FlushQueue(ec);
            |flushed.events| == |g| &&
            (forall k :: 0 <= k < |g| ==> flushed.events[k] == Dispatched(ctab[c], g[k])) &&
            flushed.ec == EmbargoClient(ctab[c], [])
  {
  }
}

=== FILE: json.dfy ===
/** Layout of the generated JSON schema types: object sizes and the constructors that use
    them (`NewJsonValue`, `NewRootJsonValue`, `NewJsonValue_List`, and the same for
    `JsonValue_Field` and `JsonValue_Call`). */
module JsonLayout {
  import opened Capnp

  /** `JsonValue`: 16 data bytes (tag, boolean, number) and one pointer (the union's payload). */
  const JsonValueSize := ObjectSize(16, 1)
  /** `JsonValue_Field` and `JsonValue_Call`: no data and two pointers. */
  const FieldSize := ObjectSize(0, 2)
  const CallSize := ObjectSize(0, 2)

  function NewJsonValue(): (r: Struct)
    ensures SizeOf(r) == ObjectSize(16, 1)
  {
    NewStruct(JsonValueSize)
  }

  function NewRootJsonValue(): (r: Struct)
    ensures SizeOf(r) == ObjectSize(16, 1)
  {
    NewStruct(JsonValueSize)
  }

  function NewJsonValueList(n: nat): (r: seq<Struct>)
    ensures |r| == n && forall i :: 0 <= i < n ==> SizeOf(r[i]) == ObjectSize(16, 1)
  {
    NewCompositeList(JsonValueSize, n)
  }

  function NewField(): (r: Struct)
    ensures SizeOf(r) == ObjectSize(0, 2)
  {
    NewStruct(FieldSize)
  }

  function NewRootField(): (r: Struct)
    ensures SizeOf(r) == ObjectSize(0, 2)
  {
    NewStruct(FieldSize)
  }

  function NewFieldList(n: nat): (r: seq<Struct>)
    ensures |r| == n && forall i :: 0 <= i < n ==> SizeOf(r[i]) == ObjectSize(0, 2)
  {
    NewCompositeList(FieldSize, n)
  }

  function NewCall(): (r: Struct)
    ensures SizeOf(r) == ObjectSize(0, 2)
  {
    NewStruct(CallSize)
  }

  function NewRootCall(): (r: Struct)
    ensures SizeOf(r) == ObjectSize(0, 2)
  {
    NewStruct(CallSize)
  }

  function NewCallList(n: nat): (r: seq<Struct>)
    ensures |r| == n && forall i :: 0 <= i < n ==> SizeOf(r[i]) == ObjectSize(0, 2)
  {
    NewCompositeList(CallSize, n)
  }
}

/** `JsonValue`: a union whose discriminant is the uint16 at data offset 0.
    Storage: tag in bytes 0-1, `boolean` at bit 16 (byte 2), `number` in bytes 8-15,
    and every pointer member (`string_`, `array`, `object`, `call`) in pointer slot 0. */
module JsonValue {
  import opened Wrappers
  import opened Capnp
  import Strconv
  import JsonLayout

  type Uint16 = x: int | 0 <= x < 0x1_0000

  /** `JsonValue_Which`: the union discriminant. */
  type JsonValueWhich = Uint16

  const WhichNull: JsonValueWhich := 0
  const WhichBoolean: JsonValueWhich := 1
  const WhichNumber: JsonValueWhich := 2
  const WhichString_: JsonValueWhich := 3
  const WhichArray: JsonValueWhich := 4
  const WhichObject: JsonValueWhich := 5
  const WhichCall: JsonValueWhich := 6

  /** A `float64` as its IEEE-754 bit pattern (`math.Float64bits`); the bits are not interpreted. */
  type Float64Bits = x: int | 0 <= x < 0x1_0000_0000_0000_0000

  const WhichNames := "nullbooleannumberstring_arrayobjectcall"

  lemma WhichNamesSlices()
    ensures WhichNames[0..4] == "null" && WhichNames[4..11] == "boolean"
    ensures WhichNames[11..17] == "number" && WhichNames[17..24] == "string_"
    ensures WhichNames[24..29] == "array" && WhichNames[29..35] == "object"
    ensures WhichNames[35..39] == "call"
  {
    assert WhichNames == "null" + "boolean" + "number" + "string_" + "array" + "object" + "call";
  }

  /** `JsonValue_Which.String`: the member name for a known tag, otherwise
      "JsonValue_Which(<decimal tag>)". */
  function WhichString(w: JsonValueWhich): (r: string)
    ensures w == WhichNull ==> r == "null"
    ensures w == WhichBoolean ==> r == "boolean"
    ensures w == WhichNumber ==> r == "number"
    ensures w == WhichString_ ==> r == "string_"
    ensures w == WhichArray ==> r == "array"
    ensures w == WhichObject ==> r == "object"
    ensures w == WhichCall ==> r == "call"
    ensures w > WhichCall ==> r == "JsonValue_Which(" + Strconv.FormatUint(w) + ")"
  {
    WhichNamesSlices();
    if w == WhichNull then WhichNames[0..4]
    else if w == WhichBoolean then WhichNames[4..11]
    else if w == WhichNumber then WhichNames[11..17]
    else if w == WhichString_ then WhichNames[17..24]
    else if w == WhichArray then WhichNames[24..29]
    else if w == WhichObject then WhichNames[29..35]
    else if w == WhichCall then WhichNames[35..39]
    else "JsonValue_Which(" + Strconv.FormatUint(w) + ")"
  }

  /** No two tags print the same: the fallback spelling cannot collide with a member name
      (it is longer) nor with another fallback (the decimal reads back). */
  lemma WhichStringInjective(a: JsonValueWhich, b: JsonValueWhich)
    requires WhichString(a) == WhichString(b)
    ensures a == b
  {
    var prefix := "JsonValue_Which(";
    if a > WhichCall && b > WhichCall {
      var da, db := Strconv.FormatUint(a), Strconv.FormatUint(b);
      assert |da| == |db|;
      assert da == WhichString(a)[|prefix|..|prefix| + |da|];
      assert db == WhichString(b)[|prefix|..|prefix| + |db|];
    }
  }

  /** `JsonValue.Which`: the little-endian uint16 in data bytes 0-1; a struct too small to
      hold it reads as 0 (`null`). */
  function Which(s: Struct): (w: JsonValueWhich)
    ensures |s.data| >= 2 ==> w == s.data[0] as int + 256 * s.data[1] as int
    ensures |s.data| < 2 ==> w == WhichNull
  {
    Pow256Widths();
    Uint(s, 0, 2)
  }

  /** Writes the tag; all other data bytes and every pointer slot are left as they were. */
  function SetTag(s: Struct, w: JsonValueWhich): (r: Outcome<Struct>)
    ensures r.Returns? <==> |s.data| >= 2
    ensures r.Returns? ==> Which(r.value) == w && r.value.ptrs == s.ptrs && |r.value.data| == |s.data|
    ensures r.Returns? ==> forall i :: 2 <= i < |s.data| ==> r.value.data[i] == s.data[i]
  {
    Pow256Widths();
    SetUint(s, 0, 2, w)
  }

  /** `SetNull`: only the tag changes; the old payload is not cleared. */
  function SetNull(s: Struct): (r: Outcome<Struct>)
    ensures r.Returns? <==> |s.data| >= 2
    ensures r.Returns? ==> Which(r.value) == WhichNull && r.value.ptrs == s.ptrs
  {
    SetTag(s, WhichNull)
  }

  /** `Boolean`: panics unless the tag is `boolean`; reads bit 16. */
  function Boolean(s: Struct): (r: Outcome<bool>)
    ensures r.Panic? <==> Which(s) != WhichBoolean
    ensures r.Panic? ==> r.message == "Which() != boolean"
    ensures r.Returns? ==> r.value == Bit(s, 16)
  {
    if Which(s) != WhichBoolean then Panic("Which() != boolean") else Returns(Bit(s, 16))
  }

  /** `SetBoolean(v)`: tag `boolean`, then bit 16; `Boolean()` then reads `v`, and the
      `number` bytes and the pointer slot are untouched. */
  function SetBoolean(s: Struct, v: bool): (r: Outcome<Struct>)
    ensures r.Returns? <==> |s.data| >= 3
    ensures r.Panic? ==> r.message == OutOfBounds
    ensures r.Returns? ==> Which(r.value) == WhichBoolean && Boolean(r.value) == Returns(v)
    ensures r.Returns? ==> Uint(r.value, 8, 8) == Uint(s, 8, 8) && r.value.ptrs == s.ptrs
  {
    var t :- SetTag(s, WhichBoolean);
    var u :- SetBit(t, 16, v);
    DisjointUintUnchanged(t, u, 0, 2);
    DisjointUintUnchanged(s, u, 8, 8);
    Returns(u)
  }

  /** `Number`: panics unless the tag is `number`; reads the 64-bit payload at offset 8. */
  function Number(s: Struct): (r: Outcome<Float64Bits>)
    ensures r.Panic? <==> Which(s) != WhichNumber
    ensures r.Panic? ==> r.message == "Which() != number"
    ensures r.Returns? ==> r.value == Uint(s, 8, 8)
  {
    Pow256Widths();
    if Which(s) != WhichNumber then Panic("Which() != number") else Returns(Uint(s, 8, 8))
  }

  /** `SetNumber(v)`: tag `number`, then the payload at bytes 8-15; `Number()` then reads
      the payload, and the `boolean` bit and the pointer slot are untouched. */
  function SetNumber(s: Struct, bits: Float64Bits): (r: Outcome<Struct>)
    ensures r.Returns? <==> |s.data| >= 16
    ensures r.Panic? ==> r.message == OutOfBounds
    ensures r.Returns? ==> Which(r.value) == WhichNumber && Number(r.value) == Returns(bits)
    ensures r.Returns? ==> Bit(r.value, 16) == Bit(s, 16) && r.value.ptrs == s.ptrs
  {
    Pow256Widths();
    var t :- SetTag(s, WhichNumber);
    var u :- SetUint(t, 8, 8, bits);
    DisjointUintUnchanged(t, u, 0, 2);
    Returns(u)
  }

  /** The payload pointer read by a getter whose tag matched. */
  function Payload(s: Struct): Fetched<Ptr> {
    ReadPtr(s, 0)
  }

  /** `String_`: panics unless the tag is `string_`; reads the text in slot 0. */
  function String_(s: Struct): (r: Outcome<Fetched<string>>)
    ensures r.Panic? <==> Which(s) != WhichString_
    ensures r.Panic? ==> r.message == "Which() != string_"
    ensures r.Returns? ==> r == Returns(String_Bytes(s))
  {
    if Which(s) != WhichString_ then Panic("Which() != string_")
    else Returns(Fetched(AsText(Payload(s).value), Payload(s).err))
  }

  /** `String_Bytes`: reads slot 0 as text without looking at the tag, so it never panics. */
  function String_Bytes(s: Struct): (r: Fetched<string>)
    ensures r.err == ReadPtr(s, 0).err
    ensures r.err.None? && 0 < |s.ptrs| && s.ptrs[0].TextPtr? ==> r.value == s.ptrs[0].text
  {
    Fetched(AsText(Payload(s).value), Payload(s).err)
  }

  /** `HasString_`: false whenever the tag is not `string_`; otherwise whether slot 0 is set or unreadable. */
  predicate HasString_(s: Struct)
    ensures HasString_(s) ==> Which(s) == WhichString_
    ensures Which(s) == WhichString_ ==> (HasString_(s) <==> HasPtr(s, 0))
  {
    Which(s) == WhichString_ && HasPtr(s, 0)
  }

  /** `SetString_(v)`: tag `string_`, then the text in slot 0. */
  function SetString_(s: Struct, v: string): (r: Outcome<Struct>)
    ensures r.Returns? <==> |s.data| >= 2 && |s.ptrs| >= 1
    ensures r.Returns? ==> Which(r.value) == WhichString_ && String_(r.value) == Returns(Fetched(v, None))
    ensures r.Returns? ==> (HasString_(r.value) <==> v != "")
    ensures r.Returns? ==> Bit(r.value, 16) == Bit(s, 16) && Uint(r.value, 8, 8) == Uint(s, 8, 8)
  {
    var t :- SetTag(s, WhichString_);
    var u :- SetText(t, 0, v);
    DisjointUintUnchanged(s, u, 8, 8);
    Returns(u)
  }

  /** `Array`: panics unless the tag is `array`; reads the list in slot 0. */
  function Array(s: Struct): (r: Outcome<Fetched<seq<Struct>>>)
    ensures r.Panic? <==> Which(s) != WhichArray
    ensures r.Panic? ==> r.message == "Which() != array"
    ensures r.Returns? ==> r.value.err == ReadPtr(s, 0).err
    ensures r.Returns? && r.value.err.None? && 0 < |s.ptrs| && s.ptrs[0].ListPtr? ==> r.value.value == s.ptrs[0].elems
  {
    if Which(s) != WhichArray then Panic("Which() != array")
    else Returns(Fetched(AsList(Payload(s).value), Payload(s).err))
  }

  predicate HasArray(s: Struct)
    ensures HasArray(s) ==> Which(s) == WhichArray
    ensures Which(s) == WhichArray ==> (HasArray(s) <==> HasPtr(s, 0))
  {
    Which(s) == WhichArray && HasPtr(s, 0)
  }

  /** `SetArray(v)`: tag `array`, then the list pointer in slot 0. `v` is a `JsonValue_List` or,
      as `None`, its zero value, whose invalid pointer is stored as null. */
  function SetArray(s: Struct, v: Option<seq<Struct>>): (r: Outcome<Struct>)
    ensures r.Returns? <==> |s.data| >= 2 && |s.ptrs| >= 1
    ensures r.Returns? ==> Which(r.value) == WhichArray && Array(r.value) == Returns(Fetched(ListOrEmpty(v), None))
    ensures r.Returns? ==> (HasArray(r.value) <==> v.Some?)
  {
    var t :- SetTag(s, WhichArray);
    SetPtr(t, 0, ListToPtr(v))
  }

  /** `NewArray(n)`: tag `array`, then a fresh list of `n` zeroed `JsonValue`s in slot 0. */
  function NewArray(s: Struct, n: nat): (r: Outcome<(Struct, seq<Struct>)>)
    ensures r.Returns? <==> |s.data| >= 2 && |s.ptrs| >= 1
    ensures r.Returns? ==> r.value.1 == JsonLayout.NewJsonValueList(n)
    ensures r.Returns? ==> Which(r.value.0) == WhichArray && Array(r.value.0) == Returns(Fetched(r.value.1, None))
  {
    var l := JsonLayout.NewJsonValueList(n);
    var t :- SetArray(s, Some(l));
    Returns((t, l))
  }

  /** `Object`: panics unless the tag is `object`; reads the field list in slot 0. */
  function Object(s: Struct): (r: Outcome<Fetched<seq<Struct>>>)
    ensures r.Panic? <==> Which(s) != WhichObject
    ensures r.Panic? ==> r.message == "Which() != object"
    ensures r.Returns? ==> r.value.err == ReadPtr(s, 0).err
    ensures r.Returns? && r.value.err.None? && 0 < |s.ptrs| && s.ptrs[0].ListPtr? ==> r.value.value == s.ptrs[0].elems
  {
    if Which(s) != WhichObject then Panic("Which() != object")
    else Returns(Fetched(AsList(Payload(s).value), Payload(s).err))
  }

  predicate HasObject(s: Struct)
    ensures HasObject(s) ==> Which(s) == WhichObject
    ensures Which(s) == WhichObject ==> (HasObject(s) <==> HasPtr(s, 0))
  {
    Which(s) == WhichObject && HasPtr(s, 0)
  }

  /** `SetObject(v)`: tag `object`, then the list pointer in slot 0. `v` is a `JsonValue_Field_List` or,
      as `None`, its zero value, whose invalid pointer is stored as null. */
  function SetObject(s: Struct, v: Option<seq<Struct>>): (r: Outcome<Struct>)
    ensures r.Returns? <==> |s.data| >= 2 && |s.ptrs| >= 1
    ensures r.Returns? ==> Which(r.value) == WhichObject && Object(r.value) == Returns(Fetched(ListOrEmpty(v), None))
    ensures r.Returns? ==> (HasObject(r.value) <==> v.Some?)
  {
    var t :- SetTag(s, WhichObject);
    SetPtr(t, 0, ListToPtr(v))
  }

  /** `NewObject(n)`: tag `object`, then a fresh list of `n` zeroed fields in slot 0. */
  function NewObject(s: Struct, n: nat): (r: Outcome<(Struct, seq<Struct>)>)
    ensures r.Returns? <==> |s.data| >= 2 && |s.ptrs| >= 1
    ensures r.Returns? ==> r.value.1 == JsonLayout.NewFieldList(n)
    ensures r.Returns? ==> Which(r.value.0) == WhichObject && Object(r.value.0) == Returns(Fetched(r.value.1, None))
  {
    var l := JsonLayout.NewFieldList(n);
    var t :- SetObject(s, Some(l));
    Returns((t, l))
  }

  /** `Call`: panics unless the tag is `call`; reads the struct in slot 0. */
  function Call(s: Struct): (r: Outcome<Fetched<Struct>>)
    ensures r.Panic? <==> Which(s) != WhichCall
    ensures r.Panic? ==> r.message == "Which() != call"
    ensures r.Returns? ==> r.value.err == ReadPtr(s, 0).err
    ensures r.Returns? && r.value.err.None? && 0 < |s.ptrs| && s.ptrs[0].StructPtr? ==> r.value.value == s.ptrs[0].target
  {
    if Which(s) != WhichCall then Panic("Which() != call")
    else Returns(Fetched(AsStruct(Payload(s).value), Payload(s).err))
  }

  predicate HasCall(s: Struct)
    ensures HasCall(s) ==> Which(s) == WhichCall
    ensures Which(s) == WhichCall ==> (HasCall(s) <==> HasPtr(s, 0))
  {
    Which(s) == WhichCall && HasPtr(s, 0)
  }

  /** `SetCall(v)`: tag `call`, then the struct pointer in slot 0. `v` is a `JsonValue_Call` or,
      as `None`, its zero value, whose invalid pointer is stored as null. */
  function SetCall(s: Struct, v: Option<Struct>): (r: Outcome<Struct>)
    ensures r.Returns? <==> |s.data| >= 2 && |s.ptrs| >= 1
    ensures r.Returns? ==> Which(r.value) == WhichCall && Call(r.value) == Returns(Fetched(StructOrEmpty(v), None))
    ensures r.Returns? ==> (HasCall(r.value) <==> v.Some?)
  {
    var t :- SetTag(s, WhichCall);
    SetPtr(t, 0, StructToPtr(v))
  }

  /** `NewCall()`: tag `call`, then a fresh zeroed `JsonValue_Call` in slot 0. */
  function NewCall(s: Struct): (r: Outcome<(Struct, Struct)>)
    ensures r.Returns? <==> |s.data| >= 2 && |s.ptrs| >= 1
    ensures r.Returns? ==> r.value.1 == JsonLayout.NewCall()
    ensures r.Returns? ==> Which(r.value.0) == WhichCall && Call(r.value.0) == Returns(Fetched(r.value.1, None))
  {
    var c := JsonLayout.NewCall();
    var t :- SetCall(s, Some(c));
    Returns((t, c))
  }

  /** `JsonValue_Promise.Call`: pipelines on slot 0, the slot the `Call` getter reads. */
  function PromiseCall<A>(p: Pipeline<A>): (r: Pipeline<A>)
    ensures r.answer == p.answer
    ensures forall root, v :: TransformPtr(root, p.transform) == Success(StructPtr(v)) ==>
              TransformPtr(root, r.transform) == Descend(StructPtr(v), PipelineOp(0))
  {
    GetPipeline(p, 0)
  }

  /** A pipelined call on `Promise.Call()` targets exactly what `Call()` reads from the
      resolved value: the pointer in slot 0, or that slot's read error. */
  lemma PromiseCallTargetsCallField<A>(p: Pipeline<A>, root: Ptr, v: Struct)
    requires TransformPtr(root, p.transform) == Success(StructPtr(v))
    requires Which(v) == WhichCall
    ensures match TransformPtr(root, PromiseCall(p).transform)
            case Success(q) => Call(v) == Returns(Fetched(AsStruct(q), None))
            case Failure(e) => Call(v) == Returns(Fetched(AsStruct(NullPtr), Some(e)))
  {
  }

  /** Every `JsonValue` field fits its layout: on a struct of `JsonValue` size no setter panics. */
  lemma SettersFitLayout(s: Struct, v: bool, bits: Float64Bits, text: string, l: Option<seq<Struct>>, c: Option<Struct>)
    requires HasLayout(s, JsonLayout.JsonValueSize)
    ensures SetNull(s).Returns? && SetBoolean(s, v).Returns? && SetNumber(s, bits).Returns?
    ensures SetString_(s, text).Returns? && SetArray(s, l).Returns? && SetObject(s, l).Returns?
    ensures SetCall(s, c).Returns?
  {
  }
}

/** `JsonValue_Field`: `name` in pointer slot 0 and `value` in pointer slot 1. */
module JsonValueField {
  import opened Wrappers
  import opened Capnp
  import JsonLayout

  function Name(s: Struct): (r: Fetched<string>)
    ensures r.err == ReadPtr(s, 0).err
    ensures r.err.None? && 0 < |s.ptrs| && s.ptrs[0].TextPtr? ==> r.value == s.ptrs[0].text
  {
    var p := ReadPtr(s, 0);
    Fetched(AsText(p.value), p.err)
  }

  /** `HasName`: slot 0 holds a pointer, or reading it fails. */
  predicate HasName(s: Struct)
    ensures HasName(s) <==> (0 < |s.ptrs| && s.ptrs[0] != NullPtr)
  {
    HasPtr(s, 0)
  }

  /** `SetName(v)`: text in slot 0; the `value` slot is untouched. */
  function SetName(s: Struct, v: string): (r: Outcome<Struct>)
    ensures r.Returns? <==> |s.ptrs| >= 1
    ensures r.Returns? ==> Name(r.value) == Fetched(v, None) && (HasName(r.value) <==> v != "")
    ensures r.Returns? ==> Value(r.value) == Value(s) && HasValue(r.value) == HasValue(s)
  {
    SetText(s, 0, v)
  }

  function Value(s: Struct): (r: Fetched<Struct>)
    ensures r.err == ReadPtr(s, 1).err
    ensures r.err.None? && 1 < |s.ptrs| && s.ptrs[1].StructPtr? ==> r.value == s.ptrs[1].target
  {
    var p := ReadPtr(s, 1);
    Fetched(AsStruct(p.value), p.err)
  }

  /** `HasValue`: slot 1 holds a pointer, or reading it fails. */
  predicate HasValue(s: Struct)
    ensures HasValue(s) <==> (1 < |s.ptrs| && s.ptrs[1] != NullPtr)
  {
    HasPtr(s, 1)
  }

  /** `SetValue(v)`: struct pointer in slot 1; the `name` slot is untouched. `v` is a
      `JsonValue` or, as `None`, its zero value, whose invalid pointer is stored as null. */
  function SetValue(s: Struct, v: Option<Struct>): (r: Outcome<Struct>)
    ensures r.Returns? <==> |s.ptrs| >= 2
    ensures r.Returns? ==> Value(r.value) == Fetched(StructOrEmpty(v), None) && (HasValue(r.value) <==> v.Some?)
    ensures r.Returns? ==> Name(r.value) == Name(s) && HasName(r.value) == HasName(s)
  {
    SetPtr(s, 1, StructToPtr(v))
  }

  /** `NewValue()`: a fresh zeroed `JsonValue` in slot 1; the `name` slot is untouched. */
  function NewValue(s: Struct): (r: Outcome<(Struct, Struct)>)
    ensures r.Returns? <==> |s.ptrs| >= 2
    ensures r.Returns? ==> r.value.1 == JsonLayout.NewJsonValue() && Value(r.value.0) == Fetched(r.value.1, None)
    ensures r.Returns? ==> HasValue(r.value.0)
    ensures r.Returns? ==> Name(r.value.0) == Name(s) && HasName(r.value.0) == HasName(s)
  {
    var v := JsonLayout.NewJsonValue();
    var t :- SetValue(s, Some(v));
    Returns((t, v))
  }

  /** `JsonValue_Field_Promise.Value`: pipelines on slot 1, the slot the `Value` getter reads. */
  function PromiseValue<A>(p: Pipeline<A>): (r: Pipeline<A>)
    ensures r.answer == p.answer
    ensures forall root, f :: TransformPtr(root, p.transform) == Success(StructPtr(f)) ==>
              TransformPtr(root, r.transform) == Descend(StructPtr(f), PipelineOp(1))
  {
    GetPipeline(p, 1)
  }

  /** A pipelined call on `Promise.Value()` targets exactly what `Value()` reads. */
  lemma PromiseValueTargetsValueField<A>(p: Pipeline<A>, root: Ptr, f: Struct)
    requires TransformPtr(root, p.transform) == Success(StructPtr(f))
    ensures match TransformPtr(root, PromiseValue(p).transform)
            case Success(q) => Value(f) == Fetched(AsStruct(q), None)
            case Failure(e) => Value(f) == Fetched(AsStruct(NullPtr), Some(e))
  {
  }
}

/** `JsonValue_Call`: `function` in pointer slot 0 and `params` in pointer slot 1. */
module JsonValueCall {
  import opened Wrappers
  import opened Capnp
  import JsonLayout

  function Function(s: Struct): (r: Fetched<string>)
    ensures r.err == ReadPtr(s, 0).err
    ensures r.err.None? && 0 < |s.ptrs| && s.ptrs[0].TextPtr? ==> r.value == s.ptrs[0].text
  {
    var p := ReadPtr(s, 0);
    Fetched(AsText(p.value), p.err)
  }

  /** `HasFunction`: slot 0 holds a pointer, or reading it fails. */
  predicate HasFunction(s: Struct)
    ensures HasFunction(s) <==> (0 < |s.ptrs| && s.ptrs[0] != NullPtr)
  {
    HasPtr(s, 0)
  }

  /** `SetFunction(v)`: text in slot 0; the `params` slot is untouched. */
  function SetFunction(s: Struct, v: string): (r: Outcome<Struct>)
    ensures r.Returns? <==> |s.ptrs| >= 1
    ensures r.Returns? ==> Function(r.value) == Fetched(v, None) && (HasFunction(r.value) <==> v != "")
    ensures r.Returns? ==> Params(r.value) == Params(s) && HasParams(r.value) == HasParams(s)
  {
    SetText(s, 0, v)
  }

  function Params(s: Struct): (r: Fetched<seq<Struct>>)
    ensures r.err == ReadPtr(s, 1).err
    ensures r.err.None? && 1 < |s.ptrs| && s.ptrs[1].ListPtr? ==> r.value == s.ptrs[1].elems
  {
    var p := ReadPtr(s, 1);
    Fetched(AsList(p.value), p.err)
  }

  /** `HasParams`: slot 1 holds a pointer, or reading it fails. */
  predicate HasParams(s: Struct)
    ensures HasParams(s) <==> (1 < |s.ptrs| && s.ptrs[1] != NullPtr)
  {
    HasPtr(s, 1)
  }

  /** `SetParams(v)`: list pointer in slot 1; the `function` slot is untouched. `v` is a
      `JsonValue_List` or, as `None`, its zero value, whose invalid pointer is stored as null. */
  function SetParams(s: Struct, v: Option<seq<Struct>>): (r: Outcome<Struct>)
    ensures r.Returns? <==> |s.ptrs| >= 2
    ensures r.Returns? ==> Params(r.value) == Fetched(ListOrEmpty(v), None) && (HasParams(r.value) <==> v.Some?)
    ensures r.Returns? ==> Function(r.value) == Function(s) && HasFunction(r.value) == HasFunction(s)
  {
    SetPtr(s, 1, ListToPtr(v))
  }

  /** `NewParams(n)`: a fresh list of `n` zeroed `JsonValue`s in slot 1; the `function` slot
      is untouched. */
  function NewParams(s: Struct, n: nat): (r: Outcome<(Struct, seq<Struct>)>)
    ensures r.Returns? <==> |s.ptrs| >= 2
    ensures r.Returns? ==> r.value.1 == JsonLayout.NewJsonValueList(n) && Params(r.value.0) == Fetched(r.value.1, None)
    ensures r.Returns? ==> HasParams(r.value.0)
    ensures r.Returns? ==> Function(r.value.0) == Function(s) && HasFunction(r.value.0) == HasFunction(s)
  {
    var l := JsonLayout.NewJsonValueList(n);
    var t :- SetParams(s, Some(l));
    Returns((t, l))
  }
}

=== FILE: rpc.dfy ===
/** Values shared by the two types of the fulfiller package (`Fulfiller` and
    `embargoClient`): queued calls, clients, answers, and the events by which the
    model records the effects an operation has on other objects. */
module Rpc {
  import opened Capnp

  /** `callQueueSize`: the capacity of every pending-call queue. */
  const CallQueueSize: nat := 64

  const ErrCallQueueFull := Error("capnp: promised answer call queue full")
  const ErrQueueCallCancel := Error("capnp: queued call canceled")

  /** The identity of a `*Fulfiller`. The caller supplies a fresh one wherever the
      source allocates with `new(Fulfiller)`. */
  type FulfillerId = nat

  /** `ecall`: a copied call and the Fulfiller its answer will settle. */
  datatype ECall = ECall(call: Call, f: FulfillerId)

  /** `capnp.Client`: either a capability implemented outside this model, or an embargo
      client placed in the capability table by `Fulfill`. */
  datatype Client = Hook(id: nat) | Embargoed(ec: EmbargoClient)

  /** `embargoClient`: the wrapped client and the FIFO of calls that must reach it first. */
  datatype EmbargoClient = EmbargoClient(client: Client, q: seq<ECall>)

  /** `capnp.Answer` as the model sees it. */
  datatype Answer =
    | Immediate(s: Struct)                                            // capnp.ImmediateAnswer(s)
    | ErrorAnswer(err: Error)                                         // capnp.ErrorAnswer(err)
    | Pending(f: FulfillerId)                                         // a fresh, unresolved *Fulfiller
    | ClientCall(client: Client, call: Call)                          // the answer of client.Call(call)
    | Pipelined(on: Answer, transform: seq<PipelineOp>, call: Call)   // the answer of on.PipelineCall(transform, call)

  /** What an operation does to objects other than the one it is called on, plus one
      record of the embargo client's own bookkeeping (`Enqueued`), which states the order
      in which calls entered its queue. */
  datatype Event =
    | Rejected(f: FulfillerId, err: Error)      // f.Reject(err)
    | Enqueued(entry: ECall)                    // entry pushed onto the embargo client's own queue
    | Dispatched(client: Client, entry: ECall)  // client.Call(entry.call); its answer later settles entry.f
    | Forwarded(client: Client, call: Call)     // client.Call(call), answered to the caller directly
    | Cancelled(entry: ECall, err: Error)       // entry.f.Reject(err), with err == errQueueCallCancel
    | Closed(client: Client)                    // client.Close()
}

=== FILE: strconv.dfy ===
/** `strconv.FormatUint(n, 10)`: the decimal spelling of a natural number, with the
    reading-back function that makes it a round trip. */
module Strconv {

  predicate IsDigit(c: char) {
    '0' <= c <= '9'
  }

  function DigitValue(c: char): nat
    requires IsDigit(c)
  {
    c as int - '0' as int
  }

  function DigitChar(d: nat): (c: char)
    requires d < 10
    ensures IsDigit(c) && DigitValue(c) == d
  {
    ('0' as int + d) as char
  }

  /** Shortest decimal spelling: digits only, no leading zero except for "0" itself. */
  function FormatUint(n: nat): (r: string)
    ensures 0 < |r|
    ensures forall i :: 0 <= i < |r| ==> IsDigit(r[i])
    ensures r[0] == '0' ==> n == 0 && r == "0"
    ensures ParseUint(r) == n
    decreases n
  {
    if n < 10 then [DigitChar(n)]
    else
      var r := FormatUint(n / 10) + [DigitChar(n % 10)];
      ParseUintSnoc(FormatUint(n / 10), DigitChar(n % 10));
      r
  }

  /** The value of a string of decimal digits, most significant first. */
  function ParseUint(s: string): nat
    requires forall i :: 0 <= i < |s| ==> IsDigit(s[i])
    decreases |s|
  {
    if |s| == 0 then 0
    else 10 * ParseUint(s[..|s| - 1]) + DigitValue(s[|s| - 1])
  }

  lemma ParseUintSnoc(s: string, c: char)
    requires forall i :: 0 <= i < |s| ==> IsDigit(s[i])
    requires IsDigit(c)
    ensures ParseUint(s + [c]) == 10 * ParseUint(s) + DigitValue(c)
  {
    assert (s + [c])[..|s|] == s;
  }
}

=== FILE: wrappers.dfy ===
/** Failure-compatible wrappers shared by every module of the model.
    - Option<T>: a Go value that may be nil.
    - Result<T>: a Go `(T, error)` pair where a non-nil error means there is no value.
    - Outcome<T>: a Go call that either returns or panics; a panic ends the model's run,
      so no state is carried past it.
 */
module Wrappers {

  datatype Option<+T> = None | Some(value: T)

  datatype Result<+T, +E> = Success(value: T) | Failure(error: E) {
    predicate IsFailure() {
      Failure?
    }

    function PropagateFailure<U>(): Result<U, E>
      requires Failure?
    {
      Failure(error)
    }

    function Extract(): T
      requires Success?
    {
      value
    }
  }

  datatype Outcome<+T> = Returns(value: T) | Panic(message: string) {
    predicate IsFailure() {
      Panic?
    }

    function PropagateFailure<U>(): Outcome<U>
      requires Panic?
    {
      Panic(message)
    }

    function Extract(): T
      requires Returns?
    {
      value
    }
  }
}
